=== FILE: README.md ===
# template-fragments in Dafny

A model of the core of the Rust crate `template-fragments`. The crate is a
line-oriented pre-processor for Jinja-style templates. A template marks
parts of itself as named fragments:

```
<body>
  {% fragment item %}
    <div>{{ item }}</div>
  {% endfragment %}
</body>
```

`filter_template(src, name)` returns the text of one fragment. The base
template is the fragment `""`. `split_templates(src)` returns every
fragment's text at once, as a map from name to text. A
`{% fragment-block name %}` … `{% endfragment-block %}` pair also opens a
fragment. Its two tag lines are rewritten to Jinja's `{% block name %}` and
`{% endblock %}` lines, and those are kept in the output.

The model follows the program's pieces, one module each:

- `Text` and `Words`: the `str` primitives the crate uses. These are
  `trim`, `strip_prefix`, `split_once`, `rsplit_once`, `find` and
  `split_whitespace`, with Unicode `White_Space` as the whitespace class.
- `Ordering`: Rust's order on `&str` (code-point lexicographic) and the
  sorted listing of a set.
- `LineSplitter`: `iterate_with_endings`. The lines keep their own `\n` or
  `\r\n`.
- `Lexer`: `parse_base`. It finds `{% keyword data %}` on a line.
- `Tags` and `Errors`: `parse_fragment_tag`, `is_valid_fragment_name`,
  `sorted_fragments`, `push_join`, and the `Tag`, `Error` and
  `ErrorWithLine` types.
- `Stack`: `FragmentStack` and its invariant,
  `active == {""} ∪ ⋃ frames`.
- `Engine`: one pass over the lines as a sequence of *emissions*. An
  emission is a text and the set of fragments it is handed to. The pass
  also reports the first error, with its 0-based line index.
- `Drivers`: `filter_template`, `split_templates` and `push_line`, written
  as the source's loops. Each driver is proved to follow the `Engine`
  pass. From that, the two drivers are proved to agree.
- `Render`: tag lines written out, and their parse results. It also shows
  that the rewritten `{% block %}` lines are plain content on a second run.
- `Paths`: `split_path` and `join_path`.

A hash set is iterated in no particular order. The model iterates it in
ascending order (`Drivers.PushLineAll`). `Drivers.PushLineEachAppends`
shows that any order without repeats gives the same map, and
`Drivers.PushLineAllAnyOrder` that the ascending walk is that map. The only order the
program exposes is the sorting inside `sorted_fragments`.

## Model

| member | source | states |
|---|---|---|
| Paths.SplitPath | src/lib.rs:108-114 | Both halves come back trimmed. The fragment contains no `#`. A path without `#` gives its trim and an empty fragment. |
| Paths.SplitPathAtLastHash | src/lib.rs:108-114 | A path splits at its last `#`: `base#frag`, with no `#` in `frag`, gives `(trim base, trim frag)`. |
| Paths.JoinPath | src/lib.rs:128-137 | The joined path is itself trimmed and starts with the trimmed path. It is just the trimmed path exactly when the fragment is blank. Otherwise the trimmed path is followed by `#` and the trimmed fragment. |
| Paths.JoinSplitRoundTrip | src/lib.rs:108-137 | Joining the parts that `split_path` returns gives back any path already in joined form. Such a path has no whitespace at either end. It either has no `#`, or ends in `#` and a non-empty, `#`-free fragment with no whitespace at either end. |
| Paths.SplitJoinRoundTrip | src/lib.rs:108-137 | `split_path(join_path(p, f)) == (trim p, trim f)` when `f` has no `#`, and either `trim f` is non-empty or `p` has no `#`. |
| LineSplitter.Lines | src/lib.rs:369-388 | The lines concatenate back to the input. Each line is non-empty and has no `\n` except at its end. Every line but the last ends in `\n`. Empty input gives no lines. |
| LineSplitter.LinesUnique | src/lib.rs:369-388 | A text has only one such decomposition, so any well-split cutting of the input is the one the iterator yields. |
| LineSplitter.IterateWithEndings | src/lib.rs:369-388 | The iterator's find-and-cut loop yields exactly `Lines(s)`: the same concatenation and line shape. |
| Words.SplitWhitespace | src/lib.rs:443 | `split_whitespace` yields non-empty, whitespace-free words. It yields none exactly for blank text. |
| Words.SplitJoinRoundTrip | src/lib.rs:443 | Words joined by one whitespace character split back into the same words. |
| Lexer.MatchKeyword | src/lib.rs:495-506 | Chains `strip_prefix` over the keywords with `or_else`, `-block` forms first. When a keyword is recognised, the text is that keyword followed by the rest it returns. |
| Lexer.MatchKeywordOf | src/lib.rs:495-506 | Any keyword followed by whitespace is recognised as itself. Trying `-block` first never hides `fragment` or `endfragment`. |
| Lexer.ParseBase | src/lib.rs:488-518 | A recognised line is laid out as: head, the first `{%`, one whitespace char, the keyword, one whitespace char, the data, the first `%}` after that, and the tail. |
| Lexer.ParseBaseComplete | src/lib.rs:488-518 | Every line laid out that way is recognised, with exactly those parts. |
| Lexer.ParseBaseNoneIffNoLayout | src/lib.rs:488-518 | `None` (content line) exactly when there is no open marker, no whitespace after it, no keyword with whitespace after it, or no `%}` after the keyword. |
| Tags.NameList | src/lib.rs:436-443 | The words of the trimmed data. They are words, and there are none exactly when the data is blank. |
| Tags.FragmentNames | src/lib.rs:443 | The set of names, where repeated names count once. It is empty exactly for blank data. |
| Tags.IsValidFragmentName | src/lib.rs:520-527 | A valid name is not `block` and holds no whitespace and no `%`, so it can be written into a tag. Every name of ASCII letters and digits other than `block` is valid. |
| Tags.ParseFragmentTag | src/lib.rs:417-486 | `Ok(None)` exactly for lines `parse_base` rejects. Any other line gets the validator's verdict on its parts. A parsed tag is well formed: it names at least one valid name, and a block's prefix is blank. |
| Tags.Classify | src/lib.rs:426-485 | A successful check yields a well-formed tag of the line's kind: `fragment` gives a start tag with the set of its names; `fragment-block` a block start with its single name and the head as prefix; `endfragment` an end tag; `endfragment-block` a block end with the head as prefix. |
| Tags.ParseStartTag | src/lib.rs:434-472 | A start tag carries the set of its names. A block start carries its single name and its prefix. Any error is one of the start-tag errors. |
| Tags.ParseStartTagErrors | src/lib.rs:434-472 | Start-tag checks in order: blank data gives `StartTagWithoutData`; then invalid names give `InvalidFragmentName` with the sorted invalid names; then a block with several names gives `MultipleNamesBlock`. Each holds iff the earlier checks passed. |
| Tags.ClassifyErrors | src/lib.rs:426-485 | Checks in order: `LeadingContent(head)`, `TrailingContent(tail)`, the start-tag errors, and `EndTagWithData(data)` for end tags. Each error iff earlier checks passed and its own fails; the tag parses iff all pass. |
| Tags.UnnamedBlockUnreachable | src/lib.rs:436-464 | `UnnamedBlock` is never returned. Blank data is rejected earlier, and non-blank data has a word. |
| Errors.SortedFragments | src/lib.rs:545-554 | For names without `""`: the names in ascending order joined by `", "`, and empty exactly for no names. |
| Errors.PushJoin | src/lib.rs:624-629 | An accumulator is the `", "`-join of the items so far, and empty for none. `push_join` makes it the join of one item more. |
| Errors.PushJoinAllIsJoin | src/lib.rs:624-629 | Calling `push_join` on non-empty names in turn, starting from an empty string, gives the names joined by `", "`. |
| Ordering.SortedSeq | src/lib.rs:546-547 | The sorted listing has the set's elements, each once, in strictly ascending order. |
| Ordering.SortedSeqUnique | src/lib.rs:546-547 | That listing is the only one, so sorting is deterministic whatever the set's iteration order. |
| Stack.Default | src/lib.rs:314-321 | The stack starts with no frames and `{""}` active, and it satisfies the invariant. |
| Stack.Push | src/lib.rs:325-342 | Fails iff some name is already active, with `ReentrantFragment` listing the colliding names sorted. On success it appends the frame, and active becomes old active ∪ names. |
| Stack.Pop | src/lib.rs:346-353 | Fails with `UnbalancedEndTag` iff there are no frames. Otherwise it returns the active set from before the pop, drops the innermost frame, and removes exactly that frame's names from active. |
| Stack.Done | src/lib.rs:355-362 | Fails iff a frame is open, with `UnclosedTag` listing every open name sorted. |
| Stack.IsActive | src/lib.rs:364-366 | Under the invariant, a fragment is active exactly when it is the base `""` or some open tag names it. |
| Stack.InUnionOf | src/lib.rs:357 | A name is in the flattened frames iff some frame holds it. |
| Stack.PushValid | src/lib.rs:325-342 | A successful push of a non-empty name set keeps `active == {""} ∪ ⋃ frames`, with the frames disjoint and `""` never opened. |
| Stack.PopValid | src/lib.rs:346-353 | A successful pop keeps the invariant. |
| Stack.PushPop | src/lib.rs:325-353 | A pop right after a push restores the stack and reports old active ∪ names. |
| Stack.DoneReportsActive | src/lib.rs:355-362 | Under the invariant, `done` passes iff only `""` is active. Otherwise it names every active fragment except `""`. |
| Engine.GetEnding | src/lib.rs:298-306 | The result is `\r\n`, `\n` or empty, and the line ends with it. It is empty iff the line does not end in `\n`. It is `\n` only if the line does not end in `\r\n`. |
| Engine.GetEndingOf | src/lib.rs:298-306 | A body followed by a terminator gives that terminator back, unless the body's last character would extend it. |
| Engine.Dispatch | src/lib.rs:176-207 | A tag fails exactly when the stack cannot take it: a start tag naming an active fragment, or an end tag with nothing open (`UnbalancedEndTag`). Content goes to every active fragment with the stack unchanged. Start and end tags hand out nothing. A block start goes to the fragments active before it and to the block. A block end goes to the fragments active before the pop. The stack left behind is the one `Push` gives for the tag's names (for a block start, its one name) or the one `Pop` gives. A failing start tag reports `Push`'s `ReentrantFragment` error. A block start's text is the `{% block name %}` line with the tag's prefix and the original line ending. A block end's text is the `{% endblock %}` line, built the same way. |
| Engine.Step | src/lib.rs:176-207 | A line `parse_base` rejects is content: the stack stays and the line goes to every active fragment. A malformed tag fails with the validator's error. A well-formed tag has the effect `Dispatch` gives it. Every accepted line keeps the stack invariant. |
| Engine.PassStaysValid | src/lib.rs:173-208 | Every stack reached during the pass satisfies the invariant. |
| Engine.RunStopsAtFirstError | src/lib.rs:173-208 | A failed pass reports line `j`: all earlier lines went through, line `j` failed with that error, and nothing after changes it. |
| Engine.PassReportsFirstError | src/lib.rs:168-212 | The pass succeeds iff every line goes through and `done` passes. Its error is the first failing line's, or else `done`'s error at the last line's index (0 for no lines). |
| Drivers.PushLine | src/lib.rs:290-296 | The fragment gets `line` appended, and is created if absent. The keys grow by the fragment, and every other entry is unchanged. |
| Drivers.PushLineEachAppends | src/lib.rs:266-282 | Calling `push_line` for each fragment of a sequence without repeats, in any order, appends the line once to each of them and changes nothing else. So the hash set's iteration order does not matter. |
| Drivers.PushLineAllAnyOrder | src/lib.rs:266-282 | The ascending walk over the set gives the order-free `AppendToAll`: every member gets the line appended, created if absent. |
| Drivers.FilterTag | src/lib.rs:176-207 | The per-line `match` of `filter_template` moves the stack as the shared pass does and fails as it does. It outputs the line's emission when `fragment` is among its recipients, and nothing otherwise. |
| Drivers.SplitTag | src/lib.rs:251-283 | The per-line `match` of `split_templates` moves the stack as the shared pass does and fails as it does. It appends the line's emission to the text of each recipient and changes nothing else. |
| Drivers.FilterTemplate | src/lib.rs:168-212 | `filter_template` is everything the template pass hands to the fragment, in order. It fails exactly as the pass does, with the same error and line. |
| Drivers.SplitTemplates | src/lib.rs:243-288 | `split_templates` is the template pass's emissions, each delivered with `push_line` to its recipients. It fails exactly as the pass does. |
| Drivers.FilterEmits | src/lib.rs:176-207 | Per line, in terms of the stack before it: a content line is emitted iff the fragment is active. Start and end tags emit nothing. A block start emits `prefix{% block name %}ending` iff the fragment is active or is `name`. A block end emits `prefix{% endblock %}ending` iff the fragment was active. |
| Drivers.FilterFollowsTrace | src/lib.rs:168-212 | `filter_template`'s loop outputs what the pass hands to the fragment, in order, and fails exactly as the pass does. |
| Drivers.SplitFollowsTrace | src/lib.rs:243-288 | `split_templates`' loop adds to the map what the pass hands out, and fails exactly as the pass does. |
| Drivers.DeliverContents | src/lib.rs:290-296 | After the pass, a fragment has an entry iff some emission reached it. The entry is everything handed to it, in order. |
| Drivers.SplitAgreesWithFilter | src/lib.rs:168-288 | Split and filter fail together, with the same error and line. Otherwise a name is a key iff its filtered text is non-empty, and its value is that text. |
| Drivers.ContentOnlyFilter | src/lib.rs:168-212 | For a template without tags, filtering `""` gives the template back, and any other name gives empty text. |
| Drivers.ContentOnlySplit | src/lib.rs:243-288 | A template without tags splits into `{"" : src}`, or into the empty map when the template is empty. |
| Render.ParseTagText | src/lib.rs:488-518 | A tag written with a blank indent and data without `%` is cut back into exactly its parts. |
| Render.ParseStartTagText | src/lib.rs:434-458 | `{% fragment a b … %}` with valid names parses to the start tag of exactly those names. |
| Render.ParseStartBlockTagText | src/lib.rs:434-471 | `{% fragment-block name %}` parses to a block start of that name, keeping the indent as prefix. |
| Render.ParseEndTagText | src/lib.rs:473-478 | `{% endfragment %}` with any blank data between the keyword and `%}` parses to an end tag. |
| Render.ParseEndBlockTagText | src/lib.rs:479-484 | `{% endfragment-block %}` with any blank data parses to a block end, keeping the indent as prefix. |
| Render.BlockOpenLineIsContent | src/lib.rs:185-190 | The rewritten `{% block name %}` line is a content line to the pre-processor. |
| Render.BlockCloseLineIsContent | src/lib.rs:197 | The rewritten `{% endblock %}` line is a content line to the pre-processor. |

## Left out

- Character classes: whitespace is Unicode `White_Space`, as in Rust. `char::is_alphanumeric` is modelled as ASCII letters and digits only (`Text.IsAlphanumeric`). Non-ASCII letters and digits, which Rust accepts in fragment names, are rejected here.
- Strings are sequences of code points. Rust's byte-wise `&str` order agrees with code-point order, so sorting is unaffected.
- Integer widths: line indices and lengths are unbounded naturals. `usize` overflow cannot occur for inputs that fit in memory.
- A failed `FragmentStack::push` has already inserted into the active set when it reports the error. The model returns only the error, because both drivers stop at the first error.
- Hash-set and hash-map iteration order is replaced by ascending order. `Drivers.PushLineEachAppends` shows the results do not depend on it.
- The `Display` implementations and the 1-based line numbers in messages: formatting only. The model keeps the 0-based index and the error value.
- Tag markers are a parameter of `parse_base` and `parse_fragment_tag`, as in the source. The drivers and the `Render` lemmas use the default `{%` / `%}`.
- The crate's `examples/minijinja.rs`, `x.py`, the test generators and `src/error.rs` (a superseded error enum outside the module tree) are not part of this model.

=== FILE: drivers.dfy ===
/** The two public entry points: `filter_template`, which extracts one
    fragment (the base template is `""`), and `split_templates`, which
    extracts all of them at once. Both are written as the source's loops,
    one line at a time, and both are proved to follow the shared pass of
    `Engine`; from that they agree with each other. */
module Drivers {
  import opened Results
  import opened Errors
  import opened Ordering
  import opened LineSplitter
  import opened Lexer
  import opened Tags
  import opened Stack
  import opened Engine

  /** The body of `filter_template`'s loop: the new stack and the text the
      line adds to the output for `fragment`. */
  function FilterLine(st: FragmentStack, line: string, fragment: string): Result<(FragmentStack, string), Error> {
    var tag :- ParseFragmentTag(line, DefaultTagMarkers);
    FilterTag(st, tag, line, fragment)
  }

  /** The `match` on the parsed line in `filter_template`'s loop: it moves
      the stack as the shared pass does and outputs what the pass hands to
      `fragment`. */
  function FilterTag(st: FragmentStack, tag: Option<Tag>, line: string, fragment: string): (r: Result<(FragmentStack, string), Error>)
    ensures r == (match Dispatch(st, tag, line)
      case Failure(e) => Failure(e)
      case Success(next) => Success((next.0, TextFor(next.1, fragment))))
  {
    match tag
    case Some(StartTag(names)) =>
      assert Dispatch(st, tag, line).Success? ==> Dispatch(st, tag, line).value == (Push(st, names).value, Emission([], {}));
      var next :- Push(st, names);
      Success((next, []))
    case Some(EndTag) =>
      assert Dispatch(st, tag, line).Success? ==> Dispatch(st, tag, line).value == (Pop(st).value.0, Emission([], {}));
      var popped :- Pop(st);
      Success((popped.0, []))
    case Some(StartBlockTag(prefix, name)) =>
      var next :- Push(st, {name});
      var rewritten := BlockOpenLine(prefix, name, GetEnding(line));
      Success((next, if IsActive(next, fragment) then rewritten else []))
    case Some(EndBlockTag(prefix)) =>
      var popped :- Pop(st);
      var rewritten := BlockCloseLine(prefix, GetEnding(line));
      Success((popped.0, if fragment in popped.1 then rewritten else []))
    case None =>
      Success((st, if IsActive(st, fragment) then line else []))
  }

  /** `filter_template`'s loop from line `i` on, with output `out` so far. */
  function FilterFrom(lines: seq<string>, i: nat, st: FragmentStack, fragment: string, out: string): Result<string, ErrorWithLine>
    requires i <= |lines|
    decreases |lines| - i
  {
    if i == |lines| then
      match Done(st)
      case Pass => Success(out)
      case Fail(e) => Failure(At(e, LastIndex(lines)))
    else
      match FilterLine(st, lines[i], fragment)
      case Failure(e) => Failure(At(e, i))
      case Success(next) => FilterFrom(lines, i + 1, next.0, fragment, out + next.1)
  }

  /** `filter_template`: the text of one fragment, or the first error. It
      is everything the template pass hands to the fragment, in order, and
      it fails exactly as the pass does. */
  function FilterTemplate(src: string, fragment: string): (r: Result<string, ErrorWithLine>)
    ensures r.Failure? <==> TemplatePass(Lines(src)).Failure?
    ensures r.Failure? ==> r.error == TemplatePass(Lines(src)).error
    ensures r.Success? ==> r.value == Collect(TemplatePass(Lines(src)).value, fragment)
  {
    FilterFollowsTrace(Lines(src), 0, Default(), fragment, []);
    assert forall t: string :: [] + t == t;
    FilterFrom(Lines(src), 0, Default(), fragment, [])
  }

  /** `push_line`: append `line` to the fragment's text, creating the entry
      if there is none yet; every other entry stays as it was. */
  function PushLine(res: map<string, string>, fragment: string, line: string): (r: map<string, string>)
    ensures r.Keys == res.Keys + {fragment}
    ensures r[fragment] == (if fragment in res then res[fragment] else []) + line
    ensures forall k :: k in res && k != fragment ==> r[k] == res[k]
  {
    if fragment in res then res[fragment := res[fragment] + line] else res[fragment := line]
  }

  /** `push_line` for each fragment in turn. */
  function PushLineEach(res: map<string, string>, fragments: seq<string>, line: string): map<string, string>
    decreases |fragments|
  {
    if fragments == [] then res else PushLineEach(PushLine(res, fragments[0], line), fragments[1..], line)
  }

  /** The loop `for fragment in set { push_line(..) }`. A hash set is
      walked in no particular order; ascending order stands in for it, and
      `PushLineAllAnyOrder` shows the order does not matter. */
  function PushLineAll(res: map<string, string>, fragments: set<string>, line: string): map<string, string> {
    PushLineEach(res, SortedSeq(fragments), line)
  }

  /** What appending `line` to every fragment of a set amounts to: each of
      them gets `line` at the end of its text, created if absent. */
  function AppendToAll(res: map<string, string>, fragments: set<string>, line: string): map<string, string> {
    map k | k in res.Keys + fragments ::
      (if k in res then res[k] else []) + (if k in fragments then line else [])
  }

  predicate Distinct(xs: seq<string>) {
    forall i, j :: 0 <= i < j < |xs| ==> xs[i] != xs[j]
  }

  /** Pushing to distinct fragments one after the other, in whatever order,
      appends the line once to each of them. */
  lemma {:induction false} PushLineEachAppends(res: map<string, string>, fragments: seq<string>, line: string)
    requires Distinct(fragments)
    ensures PushLineEach(res, fragments, line) == AppendToAll(res, (set f | f in fragments), line)
    decreases |fragments|
  {
    if fragments == [] {
      var all := set f | f in fragments;
      assert all == {};
      forall k | k in res ensures AppendToAll(res, all, line)[k] == res[k] {
        assert res[k] + [] == res[k];
      }
      assert AppendToAll(res, all, line) == res;
    } else {
      DistinctCons(fragments);
      PushLineEachAppends(PushLine(res, fragments[0], line), fragments[1..], line);
      AppendAfterPush(res, fragments[0], (set f | f in fragments[1..]), line);
    }
  }

  lemma DistinctCons(xs: seq<string>)
    requires xs != [] && Distinct(xs)
    ensures Distinct(xs[1..])
    ensures xs[0] !in (set f | f in xs[1..])
    ensures (set f | f in xs) == (set f | f in xs[1..]) + {xs[0]}
  {
    var rest := xs[1..];
    forall i, j | 0 <= i < j < |rest| ensures rest[i] != rest[j] {
      assert rest[i] == xs[i + 1] && rest[j] == xs[j + 1];
    }
    forall i | 0 <= i < |rest| ensures rest[i] != xs[0] {
      assert rest[i] == xs[i + 1];
    }
    forall f | f in xs ensures f in rest || f == xs[0] {
      var i :| 0 <= i < |xs| && xs[i] == f;
      if i > 0 { assert rest[i - 1] == f; }
    }
  }

  /** Pushing to one fragment and then appending to the others appends to
      all of them. */
  lemma AppendAfterPush(res: map<string, string>, first: string, others: set<string>, line: string)
    requires first !in others
    ensures AppendToAll(PushLine(res, first, line), others, line) == AppendToAll(res, others + {first}, line)
  {
    var pushed := PushLine(res, first, line);
    var lhs := AppendToAll(pushed, others, line);
    var rhs := AppendToAll(res, others + {first}, line);
    assert lhs.Keys == rhs.Keys;
    forall k | k in lhs ensures lhs[k] == rhs[k] {
      if k == first {
        assert pushed[k] + [] == pushed[k];
      }
    }
  }

  /** The result of the set loop is the same whatever order the set is
      walked in. */
  lemma PushLineAllAnyOrder(res: map<string, string>, fragments: set<string>, line: string)
    ensures PushLineAll(res, fragments, line) == AppendToAll(res, fragments, line)
  {
    var xs := SortedSeq(fragments);
    assert (set f | f in xs) == fragments;
    PushLineEachAppends(res, xs, line);
  }

  /** The body of `split_templates`' loop: the new stack and the map with the
      line's text added to every fragment it belongs to. */
  function SplitLine(st: FragmentStack, line: string, res: map<string, string>): Result<(FragmentStack, map<string, string>), Error> {
    var tag :- ParseFragmentTag(line, DefaultTagMarkers);
    SplitTag(st, tag, line, res)
  }

  /** The `match` on the parsed line in `split_templates`' loop: it moves
      the stack as the shared pass does and appends what the pass hands out
      to the text of each fragment it is handed to. */
  function SplitTag(st: FragmentStack, tag: Option<Tag>, line: string, res: map<string, string>): (r: Result<(FragmentStack, map<string, string>), Error>)
    ensures r == (match Dispatch(st, tag, line)
      case Failure(e) => Failure(e)
      case Success(next) => Success((next.0, AppendToAll(res, next.1.recipients, next.1.text))))
  {
    match tag
    case Some(StartTag(names)) =>
      var next :- Push(st, names);
      AppendNothing(res);
      Success((next, res))
    case Some(EndTag) =>
      var popped :- Pop(st);
      AppendNothing(res);
      Success((popped.0, res))
    case Some(StartBlockTag(prefix, name)) =>
      var next :- Push(st, {name});
      var rewritten := BlockOpenLine(prefix, name, GetEnding(line));
      PushLineAllAnyOrder(res, next.active, rewritten);
      Success((next, PushLineAll(res, next.active, rewritten)))
    case Some(EndBlockTag(prefix)) =>
      var popped :- Pop(st);
      var rewritten := BlockCloseLine(prefix, GetEnding(line));
      PushLineAllAnyOrder(res, popped.1, rewritten);
      Success((popped.0, PushLineAll(res, popped.1, rewritten)))
    case None =>
      PushLineAllAnyOrder(res, st.active, line);
      Success((st, PushLineAll(res, st.active, line)))
  }

  /** Appending nothing to no fragment changes nothing. */
  lemma AppendNothing(res: map<string, string>)
    ensures AppendToAll(res, {}, []) == res
  {
    forall k | k in res ensures AppendToAll(res, {}, [])[k] == res[k] {
      assert res[k] + [] == res[k];
    }
  }

  /** `split_templates`' loop from line `i` on, with map `res` so far. */
  function SplitFrom(lines: seq<string>, i: nat, st: FragmentStack, res: map<string, string>): Result<map<string, string>, ErrorWithLine>
    requires i <= |lines|
    decreases |lines| - i
  {
    if i == |lines| then
      match Done(st)
      case Pass => Success(res)
      case Fail(e) => Failure(At(e, LastIndex(lines)))
    else
      match SplitLine(st, lines[i], res)
      case Failure(e) => Failure(At(e, i))
      case Success(next) => SplitFrom(lines, i + 1, next.0, next.1)
  }

  /** `split_templates`: the text of every fragment, keyed by name. It is
      the template pass's emissions delivered with `push_line`, and it fails
      exactly as the pass does. */
  function SplitTemplates(src: string): (r: Result<map<string, string>, ErrorWithLine>)
    ensures r.Failure? <==> TemplatePass(Lines(src)).Failure?
    ensures r.Failure? ==> r.error == TemplatePass(Lines(src)).error
    ensures r.Success? ==> r.value == Deliver(map[], TemplatePass(Lines(src)).value)
  {
    SplitFollowsTrace(Lines(src), 0, Default(), map[]);
    SplitFrom(Lines(src), 0, Default(), map[])
  }

  /** What one line adds to `filter_template`'s output, in terms of the
      stack before the line: a content line itself when the fragment is
      active; a start or end tag nothing; a block start its `{% block %}`
      line when the fragment is active or is the block; a block end its
      `{% endblock %}` line when the fragment was active before the pop. */
  lemma FilterEmits(st: FragmentStack, tag: Option<Tag>, line: string, fragment: string)
    requires FilterTag(st, tag, line, fragment).Success?
    ensures var out := FilterTag(st, tag, line, fragment).value.1;
      && (tag.None? ==> out == (if fragment in st.active then line else []))
      && (tag.Some? && (tag.value.StartTag? || tag.value.EndTag?) ==> out == [])
      && (tag.Some? && tag.value.StartBlockTag? ==>
            out == if fragment in st.active || fragment == tag.value.fragment
                   then BlockOpenLine(tag.value.prefix, tag.value.fragment, GetEnding(line)) else [])
      && (tag.Some? && tag.value.EndBlockTag? ==>
            out == if fragment in st.active then BlockCloseLine(tag.value.prefix, GetEnding(line)) else [])
  {
    match tag
    case None =>
    case Some(StartTag(names)) =>
    case Some(EndTag) =>
    case Some(StartBlockTag(prefix, name)) =>
      var next := Push(st, {name}).value;
      assert fragment in next.active <==> fragment in st.active || fragment == name;
    case Some(EndBlockTag(prefix)) =>
      assert Pop(st).value.1 == st.active;
  }

  // ---- The drivers follow the shared pass ----

  /** The text an emission adds to one fragment. */
  function TextFor(em: Emission, fragment: string): string {
    if fragment in em.recipients then em.text else []
  }

  /** Everything the emissions hand to one fragment, in order. */
  function Collect(ems: seq<Emission>, fragment: string): string
    decreases |ems|
  {
    if ems == [] then [] else TextFor(ems[0], fragment) + Collect(ems[1..], fragment)
  }

  /** Some emission reaches the fragment. */
  predicate Reaches(ems: seq<Emission>, fragment: string) {
    exists j :: 0 <= j < |ems| && fragment in ems[j].recipients
  }

  /** Every emission in turn, added to a map with `push_line`. */
  function Deliver(res: map<string, string>, ems: seq<Emission>): map<string, string>
    decreases |ems|
  {
    if ems == [] then res else Deliver(PushLineAll(res, ems[0].recipients, ems[0].text), ems[1..])
  }

  lemma FilterLineFollowsStep(st: FragmentStack, line: string, fragment: string)
    ensures FilterLine(st, line, fragment) ==
      match Step(st, line)
      case Failure(e) => Failure(e)
      case Success(next) => Success((next.0, TextFor(next.1, fragment)))
  {
    match ParseFragmentTag(line, DefaultTagMarkers)
    case Failure(e) =>
    case Success(tag) =>
  }

  lemma SplitTagFollowsDispatch(st: FragmentStack, tag: Option<Tag>, line: string, res: map<string, string>)
    ensures SplitTag(st, tag, line, res) ==
      match Dispatch(st, tag, line)
      case Failure(e) => Failure(e)
      case Success(next) => Success((next.0, PushLineAll(res, next.1.recipients, next.1.text)))
  {
    match Dispatch(st, tag, line)
    case Failure(e) =>
    case Success(next) => PushLineAllAnyOrder(res, next.1.recipients, next.1.text);
  }

  lemma SplitLineFollowsStep(st: FragmentStack, line: string, res: map<string, string>)
    ensures SplitLine(st, line, res) ==
      match Step(st, line)
      case Failure(e) => Failure(e)
      case Success(next) => Success((next.0, PushLineAll(res, next.1.recipients, next.1.text)))
  {
    match ParseFragmentTag(line, DefaultTagMarkers)
    case Failure(e) =>
    case Success(tag) => SplitTagFollowsDispatch(st, tag, line, res);
  }

  /** `filter_template`'s loop outputs exactly what the pass hands to the
      fragment, and fails exactly as the pass does. */
  lemma {:induction false} FilterFollowsTrace(lines: seq<string>, i: nat, st: FragmentStack, fragment: string, out: string)
    requires i <= |lines|
    ensures FilterFrom(lines, i, st, fragment, out) ==
      match Trace(Step, lines, i, st)
      case Failure(e) => Failure(e)
      case Success(ems) => Success(out + Collect(ems, fragment))
    decreases |lines| - i
  {
    if i == |lines| {
      assert out + Collect([], fragment) == out;
    } else {
      FilterLineFollowsStep(st, lines[i], fragment);
      match Step(st, lines[i])
      case Failure(e) =>
        assert FilterLine(st, lines[i], fragment) == Failure(e);
      case Success(next) =>
        var text := TextFor(next.1, fragment);
        assert FilterLine(st, lines[i], fragment) == Success((next.0, text));
        assert FilterFrom(lines, i, st, fragment, out) == FilterFrom(lines, i + 1, next.0, fragment, out + text);
        FilterFollowsTrace(lines, i + 1, next.0, fragment, out + text);
        match Trace(Step, lines, i + 1, next.0)
        case Failure(e) =>
        case Success(rest) =>
          assert Trace(Step, lines, i, st) == Success([next.1] + rest);
          assert ([next.1] + rest)[1..] == rest;
          assert Collect([next.1] + rest, fragment) == text + Collect(rest, fragment);
          AppendAssoc(out, text, Collect(rest, fragment));
    }
  }

  /** Sequence concatenation regroups; the solver does not do this on its
      own inside the larger proofs above. */
  lemma AppendAssoc(a: string, b: string, c: string)
    ensures a + b + c == a + (b + c)
  {
  }

  /** `split_templates`' loop adds to the map exactly what the pass hands
      out, and fails exactly as the pass does. */
  lemma {:induction false} SplitFollowsTrace(lines: seq<string>, i: nat, st: FragmentStack, res: map<string, string>)
    requires i <= |lines|
    ensures SplitFrom(lines, i, st, res) ==
      match Trace(Step, lines, i, st)
      case Failure(e) => Failure(e)
      case Success(ems) => Success(Deliver(res, ems))
    decreases |lines| - i
  {
    if i < |lines| {
      SplitLineFollowsStep(st, lines[i], res);
      match Step(st, lines[i])
      case Failure(e) =>
      case Success(next) =>
        var pushed := PushLineAll(res, next.1.recipients, next.1.text);
        SplitFollowsTrace(lines, i + 1, next.0, pushed);
        match Trace(Step, lines, i + 1, next.0)
        case Failure(e) =>
        case Success(rest) =>
          assert ([next.1] + rest)[1..] == rest;
    }
  }

  /** One entry of `AppendToAll`. */
  lemma AppendToAllAt(res: map<string, string>, fragments: set<string>, line: string, k: string)
    ensures k in AppendToAll(res, fragments, line) <==> k in res || k in fragments
    ensures k in AppendToAll(res, fragments, line) ==>
      AppendToAll(res, fragments, line)[k] == (if k in res then res[k] else []) + (if k in fragments then line else [])
  {
  }

  lemma ReachesCons(ems: seq<Emission>, fragment: string)
    requires ems != []
    ensures Reaches(ems, fragment) <==> fragment in ems[0].recipients || Reaches(ems[1..], fragment)
  {
    if Reaches(ems, fragment) && fragment !in ems[0].recipients {
      var j :| 0 <= j < |ems| && fragment in ems[j].recipients;
      assert ems[1..][j - 1] == ems[j];
    }
    if Reaches(ems[1..], fragment) {
      var j :| 0 <= j < |ems[1..]| && fragment in ems[1..][j].recipients;
      assert ems[j + 1] == ems[1..][j];
    }
  }

  /** A fragment has an entry after the emissions exactly when it had one
      before or some emission reached it, and its entry is what it had
      followed by everything handed to it. */
  lemma {:induction false} DeliverContents(res: map<string, string>, ems: seq<Emission>, fragment: string)
    ensures fragment in Deliver(res, ems) <==> fragment in res || Reaches(ems, fragment)
    ensures fragment in Deliver(res, ems) ==>
      Deliver(res, ems)[fragment] == (if fragment in res then res[fragment] else []) + Collect(ems, fragment)
    decreases |ems|
  {
    var before := if fragment in res then res[fragment] else [];
    if ems == [] {
      assert before + [] == before;
    } else {
      var em := ems[0];
      var tail := ems[1..];
      var pushed := PushLineAll(res, em.recipients, em.text);
      PushLineAllAnyOrder(res, em.recipients, em.text);
      AppendToAllAt(res, em.recipients, em.text, fragment);
      DeliverContents(pushed, tail, fragment);
      ReachesCons(ems, fragment);
      assert Deliver(res, ems) == Deliver(pushed, tail);
      assert Collect(ems, fragment) == TextFor(em, fragment) + Collect(tail, fragment);
      AppendAssoc(before, TextFor(em, fragment), Collect(tail, fragment));
      if fragment !in pushed {
        assert before + TextFor(em, fragment) == [];
      }
    }
  }

  /** Every emission that reaches some fragment carries text. */
  predicate Substantial(ems: seq<Emission>) {
    forall j :: 0 <= j < |ems| ==> ems[j].recipients == {} || ems[j].text != []
  }

  /** Nothing is handed to a fragment exactly when no emission reaches it. */
  lemma {:induction false} CollectEmptyIffUnreached(ems: seq<Emission>, fragment: string)
    requires Substantial(ems)
    ensures Collect(ems, fragment) == [] <==> !Reaches(ems, fragment)
    decreases |ems|
  {
    if ems != [] {
      assert Substantial(ems[1..]) by {
        forall j | 0 <= j < |ems[1..]| ensures ems[1..][j].recipients == {} || ems[1..][j].text != [] {
          assert ems[1..][j] == ems[j + 1];
        }
      }
      CollectEmptyIffUnreached(ems[1..], fragment);
      ReachesCons(ems, fragment);
      assert Collect(ems, fragment) == TextFor(ems[0], fragment) + Collect(ems[1..], fragment);
    }
  }

  /** A non-empty line hands out text whenever it hands anything out. */
  lemma StepSubstantial(st: FragmentStack, line: string)
    requires line != []
    requires Step(st, line).Success?
    ensures var em := Step(st, line).value.1; em.recipients == {} || em.text != []
  {
    var tag := ParseFragmentTag(line, DefaultTagMarkers).value;
    assert Step(st, line) == Dispatch(st, tag, line);
    DispatchSubstantial(st, tag, line);
  }

  lemma DispatchSubstantial(st: FragmentStack, tag: Option<Tag>, line: string)
    requires line != []
    requires Dispatch(st, tag, line).Success?
    ensures var em := Dispatch(st, tag, line).value.1; em.recipients == {} || em.text != []
  {
  }

  /** A step that, on a non-empty line, hands out text whenever it hands
      anything out. */
  ghost predicate HandsOutText(step: StepFn) {
    forall st, line :: line != [] && step(st, line).Success? ==>
      step(st, line).value.1.recipients == {} || step(st, line).value.1.text != []
  }

  lemma StepHandsOutText()
    ensures HandsOutText(Step)
  {
    forall st, line | line != [] && Step(st, line).Success?
      ensures Step(st, line).value.1.recipients == {} || Step(st, line).value.1.text != []
    {
      StepSubstantial(st, line);
    }
  }

  /** The pass over well-split lines hands out text whenever it hands
      anything out. */
  lemma {:induction false} TraceSubstantial(step: StepFn, lines: seq<string>, i: nat, st: FragmentStack)
    requires HandsOutText(step)
    requires i <= |lines|
    requires WellSplit(lines)
    requires Trace(step, lines, i, st).Success?
    ensures Substantial(Trace(step, lines, i, st).value)
    decreases |lines| - i
  {
    if i < |lines| {
      TraceCons(step, lines, i, st);
      var next := step(st, lines[i]).value;
      assert OneLine(lines[i]);
      TraceSubstantial(step, lines, i + 1, next.0);
      SubstantialCons(next.1, Trace(step, lines, i + 1, next.0).value);
    }
  }

  lemma SubstantialCons(em: Emission, rest: seq<Emission>)
    requires em.recipients == {} || em.text != []
    requires Substantial(rest)
    ensures Substantial([em] + rest)
  {
    var ems := [em] + rest;
    forall j | 0 <= j < |ems| ensures ems[j].recipients == {} || ems[j].text != [] {
      if j > 0 { assert ems[j] == rest[j - 1]; }
    }
  }

  /** `split_templates` and `filter_template` agree: they fail together
      with the same error; otherwise a fragment has an entry exactly when
      filtering it gives some text, and the entry is that text. */
  lemma SplitAgreesWithFilter(src: string, fragment: string)
    ensures SplitTemplates(src).Failure? <==> FilterTemplate(src, fragment).Failure?
    ensures SplitTemplates(src).Failure? ==> SplitTemplates(src).error == FilterTemplate(src, fragment).error
    ensures SplitTemplates(src).Success? ==>
      (fragment in SplitTemplates(src).value <==> FilterTemplate(src, fragment).value != [])
    ensures SplitTemplates(src).Success? && fragment in SplitTemplates(src).value ==>
      SplitTemplates(src).value[fragment] == FilterTemplate(src, fragment).value
  {
    var lines := Lines(src);
    FilterFollowsTrace(lines, 0, Default(), fragment, []);
    SplitFollowsTrace(lines, 0, Default(), map[]);
    match Trace(Step, lines, 0, Default())
    case Failure(e) =>
    case Success(ems) =>
      DeliverContents(map[], ems, fragment);
      StepHandsOutText();
      TraceSubstantial(Step, lines, 0, Default());
      CollectEmptyIffUnreached(ems, fragment);
      assert [] + Collect(ems, fragment) == Collect(ems, fragment);
  }

  /** No line of the template is laid out as a tag. */
  predicate NoTags(lines: seq<string>) {
    forall j :: 0 <= j < |lines| ==> ParseBase(lines[j], DefaultTagMarkers).None?
  }

  lemma {:induction false} FilterContentFrom(lines: seq<string>, i: nat, fragment: string, out: string)
    requires i <= |lines|
    requires NoTags(lines)
    ensures FilterFrom(lines, i, Default(), fragment, out) ==
      Success(out + (if fragment == "" then Concat(lines[i..]) else []))
    decreases |lines| - i
  {
    if i == |lines| {
      assert lines[i..] == [];
      assert out + [] == out;
    } else {
      var line := lines[i];
      assert ParseFragmentTag(line, DefaultTagMarkers) == Success(None);
      var text := if fragment == "" then line else [];
      assert FilterLine(Default(), line, fragment) == Success((Default(), text));
      FilterContentFrom(lines, i + 1, fragment, out + text);
      assert lines[i..][1..] == lines[i + 1..];
      var rest := if fragment == "" then Concat(lines[i + 1..]) else [];
      assert (if fragment == "" then Concat(lines[i..]) else []) == text + rest;
      AppendAssoc(out, text, rest);
    }
  }

  /** A template without tags is its own base template, and every other
      fragment of it is empty. */
  lemma ContentOnlyFilter(src: string, fragment: string)
    requires NoTags(Lines(src))
    ensures FilterTemplate(src, fragment) == Success(if fragment == "" then src else [])
  {
    var lines := Lines(src);
    assert lines[0..] == lines;
    FilterContentFrom(lines, 0, fragment, []);
    assert Concat(lines) == src;
    assert [] + src == src;
    var none: string := [];
    assert none + none == none;
  }

  /** Splitting a template without tags gives just the base template (and
      nothing at all for an empty template). */
  lemma ContentOnlySplit(src: string)
    requires NoTags(Lines(src))
    ensures SplitTemplates(src) == Success(if src == [] then map[] else map["" := src])
  {
    ContentOnlySplitAt(src, "");
    var split := SplitTemplates(src).value;
    forall fragment
      ensures (fragment in split <==> src != [] && fragment == "") && (fragment in split ==> split[fragment] == src)
    {
      ContentOnlySplitAt(src, fragment);
    }
    BaseOnlyMap(split, src);
  }

  /** The map holding `src` under the base name alone, or nothing for empty
      `src`. */
  lemma BaseOnlyMap(split: map<string, string>, src: string)
    requires forall f :: (f in split <==> src != [] && f == "") && (f in split ==> split[f] == src)
    ensures split == if src == [] then map[] else map["" := src]
  {
    if src != [] {
      assert "" in split;
    }
  }

  /** One entry of a tag-free template's split. */
  lemma ContentOnlySplitAt(src: string, fragment: string)
    requires NoTags(Lines(src))
    ensures SplitTemplates(src).Success?
    ensures var split := SplitTemplates(src).value;
      && (fragment in split <==> src != [] && fragment == "")
      && (fragment in split ==> split[fragment] == src)
  {
    ContentOnlyFilter(src, fragment);
    SplitAgreesWithFilter(src, fragment);
  }
}

=== FILE: engine.dfy ===
/** One pass over a template's lines, as both drivers make it: each line
    either is content, handed to the active fragments, or a tag that moves
    the fragment stack (a block tag also hands a rewritten `{% block %}` or
    `{% endblock %}` line to some fragments). The drivers differ only in
    what they do with the handed-out text, so the pass is described once
    here, as a sequence of emissions, and each driver is proved to follow it. */
module Engine {
  import opened Results
  import opened Text
  import opened Errors
  import opened Lexer
  import opened Tags
  import opened Stack

  /** `get_ending`: the line terminator `line` ends with, `\r\n` before `\n`. */
  function GetEnding(line: string): (e: string)
    ensures e == "\r\n" || e == "\n" || e == ""
    ensures EndsWith(line, e)
    ensures e == "" <==> !EndsWith(line, "\n")
    ensures e == "\n" ==> !EndsWith(line, "\r\n")
  {
    if EndsWith(line, "\r\n") then "\r\n"
    else if EndsWith(line, "\n") then "\n"
    else ""
  }

  /** A line cut into its body and its terminator gives the terminator back,
      provided the body does not itself carry (part of) a longer one. */
  lemma GetEndingOf(body: string, e: string)
    requires e == "\r\n" || e == "\n" || e == ""
    requires e == "" ==> body == [] || body[|body| - 1] != '\n'
    requires e == "\n" ==> body == [] || body[|body| - 1] != '\r'
    ensures GetEnding(body + e) == e
  {
    var line := body + e;
    if e == "\r\n" {
      assert line[|line| - 2..] == e;
    } else if e == "\n" {
      assert line[|line| - 1..] == e;
      assert !EndsWith(line, "\r\n") by {
        if |line| >= 2 { assert line[|line| - 2] == body[|body| - 1]; }
      }
    } else {
      assert line == body;
    }
  }

  /** The line a `{% fragment-block name %}` tag is rewritten to. */
  function BlockOpenLine(prefix: string, name: string, ending: string): string {
    prefix + "{% block " + name + " %}" + ending
  }

  /** The line a `{% endfragment-block %}` tag is rewritten to. */
  function BlockCloseLine(prefix: string, ending: string): string {
    prefix + "{% endblock %}" + ending
  }

  /** Text handed to a set of fragments. */
  datatype Emission = Emission(text: string, recipients: set<string>)

  /** The effect of one line: the new stack and what the line hands out. A
      line without a tag's layout is content, handed to every active
      fragment with the stack left as it is; a malformed tag stops the pass
      with the validator's error; and an accepted line keeps the stack's
      invariant. */
  function Step(st: FragmentStack, line: string): (r: Result<(FragmentStack, Emission), Error>)
    ensures ParseBase(line, DefaultTagMarkers).None? ==> r == Success((st, Emission(line, st.active)))
    ensures ParseFragmentTag(line, DefaultTagMarkers).Failure? ==> r == Failure(ParseFragmentTag(line, DefaultTagMarkers).error)
    ensures ParseFragmentTag(line, DefaultTagMarkers).Success? ==>
      r == Dispatch(st, ParseFragmentTag(line, DefaultTagMarkers).value, line)
    ensures Valid(st) && r.Success? ==> Valid(r.value.0)
  {
    var tag :- ParseFragmentTag(line, DefaultTagMarkers);
    assert Valid(st) && Dispatch(st, tag, line).Success? ==> Valid(Dispatch(st, tag, line).value.0) by {
      if Valid(st) && Dispatch(st, tag, line).Success? {
        DispatchValid(st, tag, line);
      }
    }
    Dispatch(st, tag, line)
  }

  /** A tag the stack cannot take: a start tag naming an active fragment, or
      an end tag with nothing open. */
  predicate Blocked(st: FragmentStack, t: Tag) {
    match t
    case StartTag(names) => exists n :: n in names && n in st.active
    case StartBlockTag(_, name) => name in st.active
    case EndTag => st.frames == []
    case EndBlockTag(_) => st.frames == []
  }

  /** The effect of a parsed line. Content goes to every active fragment; a
      start or end tag hands out nothing; a block start hands its rewritten
      line to the fragments active after the push (those before, and the
      block), a block end to those active before the pop. A tag fails
      exactly when the stack cannot take it. */
  function Dispatch(st: FragmentStack, tag: Option<Tag>, line: string): (r: Result<(FragmentStack, Emission), Error>)
    ensures tag.None? ==> r == Success((st, Emission(line, st.active)))
    ensures r.Failure? <==> tag.Some? && Blocked(st, tag.value)
    ensures r.Failure? && tag.Some? && (tag.value.EndTag? || tag.value.EndBlockTag?) ==> r.error == UnbalancedEndTag
    ensures r.Success? && tag.Some? && (tag.value.StartTag? || tag.value.EndTag?) ==> r.value.1.recipients == {}
    ensures r.Success? && tag.Some? && tag.value.StartBlockTag? ==> r.value.1.recipients == st.active + {tag.value.fragment}
    ensures r.Success? && tag.Some? && tag.value.EndBlockTag? ==> r.value.1.recipients == st.active
    ensures tag.Some? && tag.value.StartTag? ==>
      && (r.Success? ==> Push(st, tag.value.fragments).Success? && r.value.0 == Push(st, tag.value.fragments).value)
      && (r.Failure? ==> Push(st, tag.value.fragments).Failure? && r.error == Push(st, tag.value.fragments).error)
    ensures tag.Some? && tag.value.StartBlockTag? ==>
      && (r.Success? ==> Push(st, {tag.value.fragment}).Success? && r.value.0 == Push(st, {tag.value.fragment}).value)
      && (r.Success? ==> r.value.1.text == BlockOpenLine(tag.value.prefix, tag.value.fragment, GetEnding(line)))
      && (r.Failure? ==> Push(st, {tag.value.fragment}).Failure? && r.error == Push(st, {tag.value.fragment}).error)
    ensures tag.Some? && (tag.value.EndTag? || tag.value.EndBlockTag?) && r.Success? ==>
      Pop(st).Success? && r.value.0 == Pop(st).value.0
    ensures tag.Some? && tag.value.EndBlockTag? && r.Success? ==>
      r.value.1.text == BlockCloseLine(tag.value.prefix, GetEnding(line))
  {
    match tag
    case None => Success((st, Emission(line, st.active)))
    case Some(StartTag(names)) =>
      var next :- Push(st, names);
      Success((next, Emission([], {})))
    case Some(EndTag) =>
      var popped :- Pop(st);
      Success((popped.0, Emission([], {})))
    case Some(StartBlockTag(prefix, name)) =>
      var next :- Push(st, {name});
      Success((next, Emission(BlockOpenLine(prefix, name, GetEnding(line)), next.active)))
    case Some(EndBlockTag(prefix)) =>
      var popped :- Pop(st);
      Success((popped.0, Emission(BlockCloseLine(prefix, GetEnding(line)), popped.1)))
  }

  /** The index `last_line_idx` holds after the loop: the last line's, or 0
      when there are no lines. */
  function LastIndex(lines: seq<string>): nat {
    if lines == [] then 0 else |lines| - 1
  }

  /** A per-line transition. The pass below is stated for any of them, so
      that its bookkeeping lemmas hold whatever the lines contain; the
      drivers use `Step`. */
  type StepFn = (FragmentStack, string) -> Result<(FragmentStack, Emission), Error>

  /** The emissions of lines `i..` from stack `st`, followed by the final
      `done` check; an error carries the index of the line it arose on. */
  function Trace(step: StepFn, lines: seq<string>, i: nat, st: FragmentStack): Result<seq<Emission>, ErrorWithLine>
    requires i <= |lines|
    decreases |lines| - i
  {
    if i == |lines| then
      match Done(st)
      case Pass => Success([])
      case Fail(e) => Failure(At(e, LastIndex(lines)))
    else
      match step(st, lines[i])
      case Failure(e) => Failure(At(e, i))
      case Success(next) =>
        var rest :- Trace(step, lines, i + 1, next.0);
        Success([next.1] + rest)
  }

  /** The stack after the first `k` lines, or the error that stopped the
      pass before. */
  function Run(step: StepFn, lines: seq<string>, k: nat): Result<FragmentStack, ErrorWithLine>
    requires k <= |lines|
  {
    if k == 0 then Success(Default())
    else
      var st :- Run(step, lines, k - 1);
      match step(st, lines[k - 1])
      case Failure(e) => Failure(At(e, k - 1))
      case Success(next) => Success(next.0)
  }

  /** A pass that went through line `i` took its first step there and
      continued from the stack that step left. */
  lemma TraceCons(step: StepFn, lines: seq<string>, i: nat, st: FragmentStack)
    requires i < |lines|
    requires Trace(step, lines, i, st).Success?
    ensures step(st, lines[i]).Success?
    ensures Trace(step, lines, i + 1, step(st, lines[i]).value.0).Success?
    ensures Trace(step, lines, i, st).value
      == [step(st, lines[i]).value.1] + Trace(step, lines, i + 1, step(st, lines[i]).value.0).value
  {
  }

  /** The pass both drivers make over a template's lines. */
  function TemplatePass(lines: seq<string>): Result<seq<Emission>, ErrorWithLine> {
    Trace(Step, lines, 0, Default())
  }

  /** The steps keep the stack's invariant. */
  ghost predicate KeepsValid(step: StepFn) {
    forall st, line :: Valid(st) && step(st, line).Success? ==> Valid(step(st, line).value.0)
  }

  /** Every step from a valid stack leaves a valid stack: tags that parse
      open at least one name, and a start tag never reopens an active one. */
  lemma DispatchValid(st: FragmentStack, tag: Option<Tag>, line: string)
    requires Valid(st)
    requires tag.Some? ==> WellFormedTag(tag.value)
    requires Dispatch(st, tag, line).Success?
    ensures Valid(Dispatch(st, tag, line).value.0)
  {
    match tag
    case None =>
    case Some(StartTag(names)) => PushValid(st, names);
    case Some(EndTag) => PopValid(st);
    case Some(StartBlockTag(prefix, name)) => PushValid(st, {name});
    case Some(EndBlockTag(prefix)) => PopValid(st);
  }

  lemma StepKeepsValid()
    ensures KeepsValid(Step)
  {
  }

  /** Whatever the pass has reached, the stack satisfies its invariant. */
  lemma {:induction false} RunValid(step: StepFn, lines: seq<string>, k: nat)
    requires KeepsValid(step)
    requires k <= |lines|
    requires Run(step, lines, k).Success?
    ensures Valid(Run(step, lines, k).value)
  {
    if k > 0 {
      RunValid(step, lines, k - 1);
    }
  }

  /** The stacks the template pass goes through all satisfy the invariant. */
  lemma PassStaysValid(lines: seq<string>, k: nat)
    requires k <= |lines|
    requires Run(Step, lines, k).Success?
    ensures Valid(Run(Step, lines, k).value)
  {
    StepKeepsValid();
    RunValid(Step, lines, k);
  }

  /** The pass stops at the first line that fails: line `j`'s error is
      reported exactly when every earlier line went through, and from then
      on the pass stays failed with that error. */
  lemma {:induction false} RunStopsAtFirstError(step: StepFn, lines: seq<string>, k: nat)
    requires k <= |lines|
    requires Run(step, lines, k).Failure?
    ensures var j := Run(step, lines, k).error.line;
      && j < k
      && Run(step, lines, j).Success?
      && step(Run(step, lines, j).value, lines[j]) == Failure(Run(step, lines, k).error.error)
      && Run(step, lines, j + 1) == Run(step, lines, k)
  {
    if Run(step, lines, k - 1).Failure? {
      RunStopsAtFirstError(step, lines, k - 1);
    }
  }

  /** A pass that failed by line `k` is still failed, with the same error,
      after all lines. */
  lemma {:induction false} RunFailurePersists(step: StepFn, lines: seq<string>, k: nat)
    requires k <= |lines|
    ensures Run(step, lines, k).Failure? ==> Run(step, lines, |lines|) == Run(step, lines, k)
    decreases |lines| - k
  {
    if k < |lines| && Run(step, lines, k).Failure? {
      assert Run(step, lines, k + 1) == Run(step, lines, k);
      RunFailurePersists(step, lines, k + 1);
    }
  }

  /** The pass from line `j` on, started from the stack the first `j` lines
      left, fails exactly as the whole pass does: with the first failing
      line's error, or else with `done`'s error at the last line's index. */
  lemma {:induction false} TraceFrom(step: StepFn, lines: seq<string>, j: nat)
    requires j <= |lines|
    requires Run(step, lines, j).Success?
    ensures var t := Trace(step, lines, j, Run(step, lines, j).value); var end := Run(step, lines, |lines|);
      && (t.Success? <==> end.Success? && Done(end.value) == Pass)
      && (t.Failure? && end.Failure? ==> t.error == end.error)
      && (t.Failure? && end.Success? ==> t.error == At(Done(end.value).error, LastIndex(lines)))
    decreases |lines| - j
  {
    if j < |lines| {
      var st := Run(step, lines, j).value;
      if step(st, lines[j]).Success? {
        TraceFrom(step, lines, j + 1);
      } else {
        RunFailurePersists(step, lines, j + 1);
      }
    }
  }

  /** The template pass reports the first failing line's error, or `done`'s
      at the last line's index; it succeeds exactly when every line goes
      through and no tag is left open. */
  lemma PassReportsFirstError(lines: seq<string>)
    ensures var t := TemplatePass(lines); var end := Run(Step, lines, |lines|);
      && (t.Success? <==> end.Success? && Done(end.value) == Pass)
      && (t.Failure? && end.Failure? ==> t.error == end.error)
      && (t.Failure? && end.Success? ==> t.error == At(Done(end.value).error, LastIndex(lines)))
  {
    TraceFrom(Step, lines, 0);
  }
}

=== FILE: errors.dfy ===
/** The typed errors of the pre-processor and the sorted, comma-joined name
    lists (`sorted_fragments`, `push_join`) some of them carry. */
module Errors {
  import opened Ordering
  import opened Words

  datatype Error =
    | LeadingContent(content: string)       // non-blank text before a tag
    | TrailingContent(content: string)      // non-blank text after a tag
    | EndTagWithData(content: string)       // an end tag that carries names
    | StartTagWithoutData                   // a start tag without names
    | ReentrantFragment(fragments: string)  // opening a fragment that is active
    | UnclosedTag(fragments: string)        // fragments still open at the end
    | UnbalancedEndTag                      // an end tag with nothing open
    | InvalidFragmentName(fragments: string) // reserved or ill-formed names
    | UnnamedBlock                          // a block tag without a name
    | MultipleNamesBlock(fragments: string) // a block tag with several names

  /** An error with the 0-based index of the line it belongs to. */
  datatype ErrorWithLine = ErrorWithLine(line: nat, error: Error)

  function At(e: Error, line: nat): ErrorWithLine {
    ErrorWithLine(line, e)
  }

  /** `push_join`: append `t`, preceded by `", "` unless nothing came before.
      An accumulator is a join of the items so far, the empty one of none;
      `push_join` makes it the join of one item more. */
  function PushJoin(s: string, t: string): (r: string)
    ensures r == JoinWith((if s == [] then [] else [s]) + [t], ", ")
  {
    assert JoinWith([s, t], ", ") == s + ", " + JoinWith([t], ", ");
    if s != [] then s + ", " + t else t
  }

  /** The loop of `sorted_fragments`: `push_join` each name in turn. */
  function PushJoinAll(acc: string, names: seq<string>): string
    decreases |names|
  {
    if names == [] then acc else PushJoinAll(PushJoin(acc, names[0]), names[1..])
  }

  /** `sorted_fragments`: the names in ascending order, separated by `", "`. */
  function SortedFragments(names: set<string>): (r: string)
    ensures "" !in names ==> r == JoinWith(SortedSeq(names), ", ")
    ensures "" !in names ==> (r == [] <==> names == {})
  {
    SortedFragmentsJoin(names);
    PushJoinAll("", SortedSeq(names))
  }

  lemma SortedFragmentsJoin(names: set<string>)
    ensures "" !in names ==> PushJoinAll("", SortedSeq(names)) == JoinWith(SortedSeq(names), ", ")
    ensures "" !in names ==> (JoinWith(SortedSeq(names), ", ") == [] <==> names == {})
  {
    if "" in names { return; }
    var sorted := SortedSeq(names);
    forall i | 0 <= i < |sorted| ensures sorted[i] != [] {
      assert sorted[i] in names;
    }
    PushJoinAllIsJoin(sorted);
    if names != {} {
      assert sorted[0] in names;
      JoinStartsWithWord(sorted, ", ");
    }
  }

  lemma {:induction false} PushJoinAllAfter(acc: string, names: seq<string>)
    requires acc != []
    ensures PushJoinAll(acc, names) == if names == [] then acc else acc + ", " + JoinWith(names, ", ")
    decreases |names|
  {
    if names != [] {
      PushJoinAllAfter(PushJoin(acc, names[0]), names[1..]);
      if |names| > 1 {
        assert JoinWith(names, ", ") == names[0] + ", " + JoinWith(names[1..], ", ");
      }
    }
  }

  /** Pushing non-empty names one by one is joining them with `", "`. */
  lemma PushJoinAllIsJoin(names: seq<string>)
    requires forall i :: 0 <= i < |names| ==> names[i] != []
    ensures PushJoinAll("", names) == JoinWith(names, ", ")
  {
    if names != [] {
      PushJoinAllAfter(names[0], names[1..]);
    }
  }
}

=== FILE: lexer.dfy ===
/** The tag lexer (`parse_base`): find `{% <keyword> ... %}` on a line and cut
    the line into the text before the tag, the keyword's kind, the text
    between keyword and close marker, and the text after the tag. */
module Lexer {
  import opened Results
  import opened Text

  datatype FragmentType = Start | End | BlockStart | BlockEnd

  datatype LineParts = LineParts(head: string, fragmentType: FragmentType, data: string, tail: string)

  /** The open and close markers of a tag. */
  datatype TagMarkers = TagMarkers(open: string, close: string)

  const DefaultTagMarkers := TagMarkers("{%", "%}")

  function Keyword(t: FragmentType): string {
    match t
    case Start => "fragment"
    case End => "endfragment"
    case BlockStart => "fragment-block"
    case BlockEnd => "endfragment-block"
  }

  /** The keyword that starts `s`, and what follows it. The `-block`
      keywords are tried first, since `fragment` is a prefix of
      `fragment-block` and `endfragment` one of `endfragment-block`. */
  function MatchKeyword(s: string): (r: Option<(FragmentType, string)>)
    ensures r.Some? ==> s == Keyword(r.value.0) + r.value.1
  {
    OrElse(OrElse(OrElse(
      StripKeyword(s, BlockStart),
      StripKeyword(s, BlockEnd)),
      StripKeyword(s, Start)),
      StripKeyword(s, End))
  }

  /** `strip_prefix` of one keyword, tagged with its kind. */
  function StripKeyword(s: string, t: FragmentType): Option<(FragmentType, string)> {
    match StripPrefix(s, Keyword(t))
    case Some(rest) => Some((t, rest))
    case None => None
  }

  /** `Option::or_else`: the first alternative that is present. */
  function OrElse<T>(a: Option<T>, b: Option<T>): Option<T> {
    if a.Some? then a else b
  }

  /** `parse_base`: the parts of a tag line, or `None` for a content line. */
  function ParseBase(line: string, markers: TagMarkers): (r: Option<LineParts>)
    ensures r.Some? ==> exists w1, w2 :: LaysOut(line, markers, r.value, w1, w2)
  {
    var outer :- SplitOnce(line, markers.open);
    var afterOpen :- StripWhitespaceChar(outer.1);
    var keyword :- MatchKeyword(afterOpen);
    var inner :- StripWhitespaceChar(keyword.1);
    var closed :- SplitOnce(inner, markers.close);
    var parts := LineParts(outer.0, keyword.0, closed.0, closed.1);
    ParseBaseSound(line, markers, parts, outer.1, keyword.1);
    Some(parts)
  }

  /** The text after the keyword's whitespace. */
  function TagRest(p: LineParts, m: TagMarkers): string {
    p.data + m.close + p.tail
  }

  /** The line a tag is laid out as. */
  function TagLine(p: LineParts, m: TagMarkers, w1: char, w2: char): string {
    p.head + (m.open + ([w1] + (Keyword(p.fragmentType) + ([w2] + TagRest(p, m)))))
  }

  /** `line` is the tag described by `p`: the head, the open marker (its
      first occurrence), one whitespace character, the keyword, one
      whitespace character, the data, the close marker (its first
      occurrence after the keyword) and the tail. */
  predicate LaysOut(line: string, m: TagMarkers, p: LineParts, w1: char, w2: char) {
    && IsWhitespace(w1)
    && IsWhitespace(w2)
    && line == TagLine(p, m, w1, w2)
    && IndexOf(line, m.open) == Some(|p.head|)
    && IndexOf(TagRest(p, m), m.close) == Some(|p.data|)
  }

  lemma ParseBaseSound(line: string, m: TagMarkers, p: LineParts, afterOpen: string, afterKeyword: string)
    requires SplitOnce(line, m.open) == Some((p.head, afterOpen))
    requires StripWhitespaceChar(afterOpen).Some?
    requires StripWhitespaceChar(afterOpen).value == Keyword(p.fragmentType) + afterKeyword
    requires StripWhitespaceChar(afterKeyword).Some?
    requires SplitOnce(StripWhitespaceChar(afterKeyword).value, m.close) == Some((p.data, p.tail))
    ensures LaysOut(line, m, p, afterOpen[0], afterKeyword[0])
  {
    var rest := StripWhitespaceChar(afterKeyword).value;
    assert rest == TagRest(p, m);
    assert afterKeyword == [afterKeyword[0]] + TagRest(p, m);
    assert afterOpen == [afterOpen[0]] + (Keyword(p.fragmentType) + ([afterKeyword[0]] + TagRest(p, m)));
    assert line == p.head + m.open + afterOpen;
    assert line == TagLine(p, m, afterOpen[0], afterKeyword[0]);
  }

  /** A keyword followed by whitespace is recognised as that keyword,
      whatever comes after: the priority order never hides a keyword. */
  lemma MatchKeywordOf(t: FragmentType, w: char, rest: string)
    requires IsWhitespace(w)
    ensures MatchKeyword(Keyword(t) + [w] + rest) == Some((t, [w] + rest))
  {
    var s := Keyword(t) + [w] + rest;
    assert s[|Keyword(t)|..] == [w] + rest;
    assert s[..|Keyword(t)|] == Keyword(t);
    match t
    case Start =>
      assert s[8] == w;
      assert !StartsWith(s, Keyword(BlockStart)) by { assert Keyword(BlockStart)[8] == '-'; }
      assert !StartsWith(s, Keyword(BlockEnd)) by { assert s[0] == 'f'; }
    case End =>
      assert s[11] == w;
      assert !StartsWith(s, Keyword(BlockStart)) by { assert s[0] == 'e'; }
      assert !StartsWith(s, Keyword(BlockEnd)) by { assert Keyword(BlockEnd)[11] == '-'; }
      assert !StartsWith(s, Keyword(Start)) by { assert s[0] == 'e'; }
    case BlockStart =>
    case BlockEnd =>
      assert !StartsWith(s, Keyword(BlockStart)) by { assert s[0] == 'e'; }
  }

  /** Every tag line is recognised, with exactly the parts it is laid out
      from. With the result's own postcondition this makes `ParseBase`
      return `None` exactly for lines that are not laid out as a tag. */
  lemma ParseBaseComplete(line: string, m: TagMarkers, p: LineParts, w1: char, w2: char)
    requires LaysOut(line, m, p, w1, w2)
    ensures ParseBase(line, m) == Some(p)
  {
    var kw := Keyword(p.fragmentType);
    var rest := TagRest(p, m);
    var inner := [w2] + rest;
    var afterOpen := [w1] + (kw + inner);
    assert line == p.head + m.open + afterOpen;
    SplitOnceAt(line, p.head, m.open, afterOpen);
    assert StripWhitespaceChar(afterOpen) == Some(kw + inner) by {
      assert afterOpen[1..] == kw + inner;
    }
    assert MatchKeyword(kw + inner) == Some((p.fragmentType, inner)) by {
      MatchKeywordOf(p.fragmentType, w2, rest);
      assert kw + inner == kw + [w2] + rest;
    }
    assert StripWhitespaceChar(inner) == Some(rest);
    SplitOnceAt(rest, p.data, m.close, p.tail);
  }

  /** A line is content (no tag) exactly when it cannot be laid out as one. */
  lemma ParseBaseNoneIffNoLayout(line: string, m: TagMarkers)
    ensures ParseBase(line, m).None? <==> forall p, w1, w2 :: !LaysOut(line, m, p, w1, w2)
  {
    if ParseBase(line, m).None? {
      forall p, w1, w2 ensures !LaysOut(line, m, p, w1, w2) {
        if LaysOut(line, m, p, w1, w2) {
          ParseBaseComplete(line, m, p, w1, w2);
        }
      }
    }
  }
}

=== FILE: lines.dfy ===
/** The line splitter: `iterate_with_endings` cuts a template into lines that
    keep their own terminators. */
module LineSplitter {
  import opened Results
  import opened Text

  /** The lines laid end to end. */
  function Concat(lines: seq<string>): string
    decreases |lines|
  {
    if lines == [] then "" else lines[0] + Concat(lines[1..])
  }

  lemma {:induction false} ConcatAppend(a: seq<string>, b: seq<string>)
    ensures Concat(a + b) == Concat(a) + Concat(b)
    decreases |a|
  {
    if a == [] {
      assert a + b == b;
    } else {
      assert (a + b)[1..] == a[1..] + b;
      ConcatAppend(a[1..], b);
    }
  }

  /** `line` holds no line feed except, possibly, as its last character. */
  predicate OneLine(line: string) {
    line != [] && forall j :: 0 <= j < |line| - 1 ==> line[j] != '\n'
  }

  /** The shape `iterate_with_endings` promises: every line is a single
      non-empty line and every line but the last ends in a line feed (so a
      `\r\n` terminator stays whole with its line). */
  predicate WellSplit(lines: seq<string>) {
    && (forall i :: 0 <= i < |lines| ==> OneLine(lines[i]))
    && (forall i :: 0 <= i < |lines| - 1 ==> lines[i][|lines[i]| - 1] == '\n')
  }

  /** The lines of `s`, as `iterate_with_endings` yields them: laid end to end
      they give `s` back, they are well split, and only empty input has none. */
  function Lines(s: string): (lines: seq<string>)
    ensures Concat(lines) == s
    ensures WellSplit(lines)
    ensures lines == [] <==> s == []
    decreases |s|
  {
    match IndexOf(s, "\n")
    case Some(i) =>
      FirstLine(s, i);
      assert s == s[..i + 1] + s[i + 1..];
      [s[..i + 1]] + Lines(s[i + 1..])
    case None =>
      if s != [] then LastLine(s); [s] else []
  }

  /** A text has exactly one well-split decomposition into lines. */
  lemma {:induction false} LinesUnique(lines: seq<string>, s: string)
    requires WellSplit(lines)
    requires Concat(lines) == s
    ensures lines == Lines(s)
    decreases |lines|
  {
    if lines != [] {
      var l := lines[0];
      var rest := lines[1..];
      assert s == l + Concat(rest);
      assert WellSplit(rest) by {
        assert forall i :: 0 <= i < |rest| ==> rest[i] == lines[i + 1];
      }
      LinesUnique(rest, Concat(rest));
      if |lines| == 1 {
        assert Concat(rest) == [];
      }
      LinesCons(l, Concat(rest));
    }
  }

  /** A line followed by more text is split off first, when it ends in a
      line feed or is all there is. */
  lemma LinesCons(l: string, t: string)
    requires OneLine(l)
    requires l[|l| - 1] == '\n' || t == []
    ensures Lines(l + t) == [l] + Lines(t)
  {
    var s := l + t;
    forall j: nat | j < |l| - 1 ensures !OccursAt(s, "\n", j) {
      assert s[j..j + 1] == [l[j]];
    }
    if l[|l| - 1] == '\n' {
      assert s[|l| - 1..|l|] == "\n";
      IndexOfFirst(s, "\n", |l| - 1);
      assert s[..|l|] == l;
      assert s[|l|..] == t;
    } else {
      assert s == l;
      forall j: nat ensures !OccursAt(s, "\n", j) {
        if j < |s| { assert s[j..j + 1] == [l[j]]; }
      }
      assert Lines([]) == [];
    }
  }

  /** The text up to the first line feed is one line. */
  lemma FirstLine(s: string, i: nat)
    requires IndexOf(s, "\n") == Some(i)
    ensures i < |s| && s[i] == '\n' && OneLine(s[..i + 1])
  {
    forall j | 0 <= j < i ensures s[j] != '\n' {
      assert !OccursAt(s, "\n", j);
      assert s[j..j + 1] == [s[j]];
    }
  }

  /** Text without a line feed is one line. */
  lemma LastLine(s: string)
    requires s != [] && IndexOf(s, "\n") == None
    ensures OneLine(s) && '\n' !in s
  {
    forall j | 0 <= j < |s| ensures s[j] != '\n' {
      assert !OccursAt(s, "\n", j);
      assert s[j..j + 1] == [s[j]];
    }
  }

  /** `iterate_with_endings` as the loop the iterator performs: find the next
      line feed, yield up to and including it, continue after it; yield an
      unterminated remainder as the last line. */
  method IterateWithEndings(s: string) returns (lines: seq<string>)
    ensures Concat(lines) == s
    ensures WellSplit(lines)
    ensures lines == Lines(s)
  {
    lines := [];
    var rest := s;
    while rest != []
      invariant Concat(lines) + rest == s
      invariant WellSplit(lines)
      invariant rest != [] && lines != [] ==> lines[|lines| - 1][|lines[|lines| - 1]| - 1] == '\n'
      decreases |rest|
    {
      var line, next;
      match IndexOf(rest, "\n") {
        case Some(i) =>
          FirstLine(rest, i);
          line, next := rest[..i + 1], rest[i + 1..];
        case None =>
          LastLine(rest);
          line, next := rest, [];
      }
      assert rest == line + next && line != [];
      AppendLine(lines, line, next);
      lines, rest := lines + [line], next;
    }
    LinesUnique(lines, s);
  }

  /** Adding a line keeps the lines well split, provided the line before it
      was terminated and the line is terminated unless it is the last. */
  lemma AppendLine(lines: seq<string>, line: string, next: string)
    requires WellSplit(lines) && OneLine(line)
    requires lines != [] ==> lines[|lines| - 1][|lines[|lines| - 1]| - 1] == '\n'
    requires next != [] ==> line[|line| - 1] == '\n'
    ensures WellSplit(lines + [line])
    ensures Concat(lines + [line]) + next == Concat(lines) + (line + next)
    ensures next != [] ==> (lines + [line])[|lines|][|line| - 1] == '\n'
  {
    ConcatAppend(lines, [line]);
    assert Concat([line]) == line + [];
    var all := lines + [line];
    forall i | 0 <= i < |all| ensures OneLine(all[i]) {
      if i < |lines| { assert all[i] == lines[i]; }
    }
    forall i | 0 <= i < |all| - 1 ensures all[i][|all[i]| - 1] == '\n' {
      assert all[i] == lines[i];
    }
  }
}

=== FILE: ordering.dfy ===
/** The order Rust's `sort` puts `&str` values in (byte-wise, which for UTF-8
    is code-point-wise lexicographic order), and the sorted listing of a set. */
module Ordering {

  /** `a` sorts no later than `b`. */
  predicate LexLe(a: string, b: string)
    decreases |a|
  {
    a == [] || (b != [] && (a[0] < b[0] || (a[0] == b[0] && LexLe(a[1..], b[1..]))))
  }

  lemma LexLeReflexive(a: string)
    ensures LexLe(a, a)
  {
  }

  lemma {:induction false} LexLeTotal(a: string, b: string)
    ensures LexLe(a, b) || LexLe(b, a)
    decreases |a|
  {
    if a != [] && b != [] && a[0] == b[0] {
      LexLeTotal(a[1..], b[1..]);
    }
  }

  lemma {:induction false} LexLeAntisymmetric(a: string, b: string)
    requires LexLe(a, b) && LexLe(b, a)
    ensures a == b
    decreases |a|
  {
    if a != [] {
      LexLeAntisymmetric(a[1..], b[1..]);
      assert a == [a[0]] + a[1..];
      assert b == [b[0]] + b[1..];
    }
  }

  lemma {:induction false} LexLeTransitive(a: string, b: string, c: string)
    requires LexLe(a, b) && LexLe(b, c)
    ensures LexLe(a, c)
    decreases |a|
  {
    if a != [] && a[0] == b[0] && b[0] == c[0] {
      LexLeTransitive(a[1..], b[1..], c[1..]);
    }
  }

  /** `m` is the least element of `s`. */
  predicate IsLeast(m: string, s: set<string>) {
    m in s && forall y :: y in s ==> LexLe(m, y)
  }

  lemma {:induction false} LeastExists(s: set<string>)
    requires s != {}
    ensures exists m :: IsLeast(m, s)
    decreases |s|
  {
    var x :| x in s;
    if s == {x} {
      LexLeReflexive(x);
      assert IsLeast(x, s);
    } else {
      LeastExists(s - {x});
      var m :| IsLeast(m, s - {x});
      LexLeTotal(m, x);
      if LexLe(m, x) {
        assert IsLeast(m, s);
      } else {
        forall y | y in s ensures LexLe(x, y) {
          if y == x { LexLeReflexive(x); } else { LexLeTransitive(x, m, y); }
        }
        assert IsLeast(x, s);
      }
    }
  }

  lemma LeastUnique(s: set<string>)
    ensures forall a, b :: IsLeast(a, s) && IsLeast(b, s) ==> a == b
  {
    forall a, b | IsLeast(a, s) && IsLeast(b, s) ensures a == b {
      LexLeAntisymmetric(a, b);
    }
  }

  /** The least element of a non-empty set. */
  function Least(s: set<string>): (m: string)
    requires s != {}
    ensures IsLeast(m, s)
  {
    LeastExists(s);
    LeastUnique(s);
    var m :| IsLeast(m, s);
    m
  }

  /** Ascending and without repetitions. */
  predicate StrictlySorted(xs: seq<string>) {
    forall i, j :: 0 <= i < j < |xs| ==> LexLe(xs[i], xs[j]) && xs[i] != xs[j]
  }

  /** The elements of `s` in ascending order, each once. */
  function SortedSeq(s: set<string>): (xs: seq<string>)
    ensures |xs| == |s|
    ensures forall x :: x in xs <==> x in s
    ensures StrictlySorted(xs)
    decreases |s|
  {
    if s == {} then []
    else
      var m := Least(s);
      var rest := SortedSeq(s - {m});
      LeastThenSorted(m, rest, s);
      [m] + rest
  }

  /** The least element followed by a sorted listing of the others is a
      sorted listing of the whole set. */
  lemma LeastThenSorted(m: string, rest: seq<string>, s: set<string>)
    requires IsLeast(m, s)
    requires forall x :: x in rest <==> x in s - {m}
    requires StrictlySorted(rest)
    ensures forall x :: x in [m] + rest <==> x in s
    ensures StrictlySorted([m] + rest)
  {
    var xs := [m] + rest;
    forall i, j | 0 <= i < j < |xs| ensures LexLe(xs[i], xs[j]) && xs[i] != xs[j] {
      if i == 0 {
        assert xs[j] == rest[j - 1] && rest[j - 1] in rest;
      } else {
        assert xs[i] == rest[i - 1] && xs[j] == rest[j - 1];
      }
    }
  }

  /** A set has exactly one ascending listing without repetitions. */
  lemma {:induction false} SortedSeqUnique(xs: seq<string>, s: set<string>)
    requires StrictlySorted(xs)
    requires forall x :: x in xs <==> x in s
    ensures xs == SortedSeq(s)
    decreases |xs|
  {
    if xs == [] {
      assert forall x :: x !in s;
    } else {
      assert xs[0] in s;
      var m := Least(s);
      assert xs[0] == m by {
        HeadIsLeast(xs, s);
        LeastUnique(s);
      }
      TailElements(xs, s);
      SortedSeqUnique(xs[1..], s - {m});
      assert xs == [m] + xs[1..];
    }
  }

  lemma HeadIsLeast(xs: seq<string>, s: set<string>)
    requires xs != [] && StrictlySorted(xs)
    requires forall x :: x in xs <==> x in s
    ensures IsLeast(xs[0], s)
  {
    forall y | y in s ensures LexLe(xs[0], y) {
      var j :| 0 <= j < |xs| && xs[j] == y;
      if j == 0 { LexLeReflexive(y); }
    }
  }

  lemma TailElements(xs: seq<string>, s: set<string>)
    requires xs != [] && StrictlySorted(xs)
    requires forall x :: x in xs <==> x in s
    ensures forall x :: x in xs[1..] <==> x in s - {xs[0]}
    ensures StrictlySorted(xs[1..])
  {
    var rest := xs[1..];
    forall x ensures x in rest <==> x in s - {xs[0]} {
      if x in rest {
        var j :| 0 <= j < |rest| && rest[j] == x;
        assert xs[j + 1] == x;
      }
      if x in s - {xs[0]} {
        var j :| 0 <= j < |xs| && xs[j] == x;
        assert rest[j - 1] == x;
      }
    }
  }
}

=== FILE: paths.dfy ===
/** Template paths with an optional `#fragment` suffix (`split_path`,
    `join_path`). */
module Paths {
  import opened Results
  import opened Text

  /** `split_path`: the path and fragment around the last `#`, both trimmed;
      without a `#` the fragment is empty. */
  function SplitPath(path: string): (r: (string, string))
    ensures '#' !in path ==> r == (Trim(path), "")
    ensures '#' !in r.1
    ensures Trim(r.0) == r.0 && Trim(r.1) == r.1
  {
    match RSplitOnceChar(path, '#')
    case Some((base, fragment)) =>
      TrimIdempotent(base);
      TrimIdempotent(fragment);
      TrimNoNewChars(fragment, '#');
      (Trim(base), Trim(fragment))
    case None =>
      TrimIdempotent(path);
      (Trim(path), "")
  }

  /** `join_path`: trimmed path, followed by `#` and the trimmed fragment
      unless that is empty. The result is itself trimmed, starts with the
      trimmed path, and is just that path exactly when the fragment is blank;
      otherwise the path is followed by `#` and the trimmed fragment. */
  function JoinPath(path: string, fragment: string): (r: string)
    ensures Trim(r) == r
    ensures StartsWith(r, Trim(path))
    ensures r == Trim(path) <==> IsBlank(fragment)
    ensures !IsBlank(fragment) ==> r[|Trim(path)|..] == "#" + Trim(fragment)
  {
    var p := Trim(path);
    var f := Trim(fragment);
    if f == [] then
      TrimIdempotent(path);
      StartsWithSelf(p);
      p
    else
      JoinTrimmed(p, f);
      JoinedTail(p, f);
      p + "#" + f
  }

  lemma StartsWithSelf(s: string)
    ensures StartsWith(s, s)
  {
    assert s[..|s|] == s;
  }

  /** Joining a trimmed path and a non-empty trimmed fragment gives a
      trimmed result that starts with the path. */
  lemma JoinTrimmed(p: string, f: string)
    requires Unpadded(p)
    requires f != [] && Unpadded(f)
    ensures Trim(p + "#" + f) == p + "#" + f
    ensures StartsWith(p + "#" + f, p)
  {
    var r := p + "#" + f;
    assert r[|r| - 1] == f[|f| - 1];
    assert r[0] == if p == [] then '#' else p[0];
    assert [] + r + [] == r;
    TrimFramed([], r, []);
    assert r[..|p|] == p;
  }

  /** What follows the path in a joined path. */
  lemma JoinedTail(p: string, f: string)
    ensures (p + "#" + f)[|p|..] == "#" + f
  {
  }

  /** Trimming only removes characters. */
  lemma TrimNoNewChars(s: string, c: char)
    requires c !in s
    ensures c !in Trim(s)
  {
    TrimIsSlice(s);
    NoCharInSlice(s, LeadingWhitespace(s), LeadingWhitespace(s) + |Trim(s)|, c);
  }

  /** A slice holds no character its string does not. */
  lemma NoCharInSlice(s: string, i: nat, j: nat, c: char)
    requires i <= j <= |s| && c !in s
    ensures c !in s[i..j]
  {
    forall y | 0 <= y < j - i ensures s[i..j][y] != c {
      assert s[i..j][y] == s[i + y];
    }
  }

  /** A path with a `#` splits at its last one. */
  lemma SplitPathAtLastHash(base: string, fragment: string)
    requires '#' !in fragment
    ensures SplitPath(base + "#" + fragment) == (Trim(base), Trim(fragment))
  {
    RSplitOnceCharOf(base, '#', fragment);
  }

  /** Splitting a joined path gives back the trimmed parts, provided the
      fragment has no `#` and the path has none either when the fragment
      is blank (so that no `#` of the path is mistaken for the separator). */
  lemma SplitJoinRoundTrip(path: string, fragment: string)
    requires '#' !in fragment
    requires Trim(fragment) != [] || '#' !in path
    ensures SplitPath(JoinPath(path, fragment)) == (Trim(path), Trim(fragment))
  {
    var p := Trim(path);
    var f := Trim(fragment);
    TrimIdempotent(path);
    TrimIdempotent(fragment);
    TrimNoNewChars(fragment, '#');
    if f == [] {
      TrimNoNewChars(path, '#');
    } else {
      SplitPathAtLastHash(p, f);
    }
  }

  /** Joining the parts a path splits into gives the path back, for any
      path already in joined form: trimmed, with a trimmed `#`-free
      fragment after a `#` when the fragment is non-empty, and with no `#`
      at all otherwise. */
  lemma JoinSplitRoundTrip(p: string, f: string)
    requires Unpadded(p) && Unpadded(f)
    requires '#' !in f
    requires f == [] ==> '#' !in p
    ensures var s := if f == [] then p else p + "#" + f;
      JoinPath(SplitPath(s).0, SplitPath(s).1) == s
  {
    if f == [] {
      JoinBlank(p);
    } else {
      SplitPathAtLastHash(p, f);
      UnpaddedTrim(p);
      UnpaddedTrim(f);
      JoinNonBlank(p, f);
    }
  }

  /** A `#`-free trimmed path splits to itself and an empty fragment, and
      joins back unchanged. */
  lemma JoinBlank(p: string)
    requires Unpadded(p) && '#' !in p
    ensures JoinPath(SplitPath(p).0, SplitPath(p).1) == p
  {
    UnpaddedTrim(p);
    assert SplitPath(p) == (p, "");
    assert IsBlank("");
  }

  /** Trimmed parts with a non-empty fragment join to `p#f`. */
  lemma JoinNonBlank(p: string, f: string)
    requires Unpadded(p) && Unpadded(f) && f != []
    ensures JoinPath(p, f) == p + "#" + f
  {
    assert Trim(p) == p by { UnpaddedTrim(p); }
    assert Trim(f) == f by { UnpaddedTrim(f); }
    assert !IsBlank(f) by { assert !IsWhitespace(f[0]); }
    PrefixAndRest(JoinPath(p, f), p, "#" + f);
    assert p + ("#" + f) == p + "#" + f;
  }

  /** A string is its prefix followed by what comes after it. */
  lemma PrefixAndRest(r: string, p: string, t: string)
    requires StartsWith(r, p) && r[|p|..] == t
    ensures r == p + t
  {
    assert r == r[..|p|] + r[|p|..];
  }
}

=== FILE: render.dfy ===
/** Tag lines as a template author writes them (`{% fragment a b %}`,
    `{% endfragment %}`, and the `-block` forms), and the validator reading
    them back; also the `{% block %}` lines the drivers write in place of
    block tags, which a second pass reads as plain content. */
module Render {
  import opened Results
  import opened Text
  import opened Words
  import opened Lexer
  import opened Tags
  import opened Engine

  /** `indent{% keyword data%}ending`, with one space after the open marker
      and one after the keyword. */
  function TagText(indent: string, t: FragmentType, data: string, ending: string): string {
    TagLine(LineParts(indent, t, data, ending), DefaultTagMarkers, ' ', ' ')
  }

  /** The data of a start tag naming `names`: the names, each followed by
      one space. */
  function NamesData(names: seq<string>): string {
    JoinWith(names, " ") + " "
  }

  /** The open marker is found at the end of a blank indent. */
  lemma OpenMarkerAfterIndent(line: string, indent: string)
    requires IsBlank(indent)
    requires |indent| + 2 <= |line| && line[..|indent|] == indent && line[|indent|..|indent| + 2] == "{%"
    ensures IndexOf(line, "{%") == Some(|indent|)
  {
    forall k: nat | k < |indent| ensures !OccursAt(line, "{%", k) {
      assert line[k] == indent[k] && line[k] != '{';
    }
    assert OccursAt(line, "{%", |indent|);
    IndexOfFirst(line, "{%", |indent|);
  }

  /** The close marker is found right after data without a `%`. */
  lemma CloseMarkerAfterData(rest: string, data: string)
    requires '%' !in data
    requires |data| + 2 <= |rest| && rest[..|data|] == data && rest[|data|..|data| + 2] == "%}"
    ensures IndexOf(rest, "%}") == Some(|data|)
  {
    forall k: nat | k < |data| ensures !OccursAt(rest, "%}", k) {
      assert rest[k] == data[k] && rest[k] != '%';
    }
    assert OccursAt(rest, "%}", |data|);
    IndexOfFirst(rest, "%}", |data|);
  }

  /** A tag written with a blank indent and data without a `%` is cut back
      into exactly its parts. */
  lemma ParseTagText(indent: string, t: FragmentType, data: string, ending: string)
    requires IsBlank(indent)
    requires '%' !in data
    ensures ParseBase(TagText(indent, t, data, ending), DefaultTagMarkers) == Some(LineParts(indent, t, data, ending))
  {
    var p := LineParts(indent, t, data, ending);
    var m := DefaultTagMarkers;
    var line := TagText(indent, t, data, ending);
    var rest := TagRest(p, m);
    OpenMarkerAfterIndent(line, indent);
    CloseMarkerAfterData(rest, data);
    assert LaysOut(line, m, p, ' ', ' ');
    ParseBaseComplete(line, m, p, ' ', ' ');
  }

  /** Characters of a valid fragment name are neither whitespace nor `%`. */
  lemma NameCharsPlain(name: string)
    requires IsFragmentName(name)
    ensures NoWhitespace(name) && '%' !in name
  {
    forall i | 0 <= i < |name| ensures !IsWhitespace(name[i]) && name[i] != '%' {
      assert IsNameChar(name[i]);
    }
  }

  /** Names that are all valid fragment names. */
  predicate AllFragmentNames(names: seq<string>) {
    forall i :: 0 <= i < |names| ==> IsFragmentName(names[i])
  }

  /** A join of plain words contains no `%` and ends with the last word's
      last character. */
  lemma {:induction false} JoinPlain(names: seq<string>)
    requires |names| > 0 && AllFragmentNames(names)
    ensures '%' !in JoinWith(names, " ")
    ensures var j := JoinWith(names, " "); j != [] && j[|j| - 1] == names[|names| - 1][|names[|names| - 1]| - 1]
    decreases |names|
  {
    NameCharsPlain(names[0]);
    if |names| > 1 {
      assert AllFragmentNames(names[1..]) by {
        forall i | 0 <= i < |names[1..]| ensures IsFragmentName(names[1..][i]) {
          assert names[1..][i] == names[i + 1];
        }
      }
      JoinPlain(names[1..]);
      assert names[1..][|names[1..]| - 1] == names[|names| - 1];
    }
  }

  /** The data of a start tag trims to the joined names, which split back
      into the names. */
  lemma NamesDataWords(names: seq<string>)
    requires |names| > 0 && AllFragmentNames(names)
    ensures '%' !in NamesData(names)
    ensures !IsBlank(NamesData(names))
    ensures NameList(NamesData(names)) == names
  {
    var j := JoinWith(names, " ");
    JoinPlain(names);
    JoinStartsWithWord(names, " ");
    NameCharsPlain(names[0]);
    NameCharsPlain(names[|names| - 1]);
    assert !IsWhitespace(j[0]) && !IsWhitespace(j[|j| - 1]);
    assert !IsBlank(NamesData(names)) by { assert NamesData(names)[0] == j[0]; }
    TrimFramed([], j, " ");
    assert [] + j + " " == NamesData(names);
    assert AreWords(names) by {
      forall i | 0 <= i < |names| ensures names[i] != [] && NoWhitespace(names[i]) {
        NameCharsPlain(names[i]);
      }
    }
    SplitJoinRoundTrip(names, ' ');
  }

  /** `{% fragment a b ... %}` names exactly the listed fragments. */
  lemma ParseStartTagText(indent: string, names: seq<string>, ending: string)
    requires IsBlank(indent) && IsBlank(ending)
    requires |names| > 0 && AllFragmentNames(names)
    ensures ParseFragmentTag(TagText(indent, Start, NamesData(names), ending), DefaultTagMarkers)
      == Success(Some(StartTag(set n | n in names)))
  {
    var data := NamesData(names);
    NamesDataWords(names);
    ParseTagText(indent, Start, data, ending);
    var p := LineParts(indent, Start, data, ending);
    assert InvalidNames(data) == {} by {
      forall n | n in FragmentNames(data) ensures IsValidFragmentName(n) {
        var i :| 0 <= i < |names| && names[i] == n;
      }
    }
    ParseStartTagErrors(p);
  }

  /** `{% fragment-block name %}` opens a block of exactly that name,
      indented as written. */
  lemma ParseStartBlockTagText(indent: string, name: string, ending: string)
    requires IsBlank(indent) && IsBlank(ending)
    requires IsFragmentName(name)
    ensures ParseFragmentTag(TagText(indent, BlockStart, NamesData([name]), ending), DefaultTagMarkers)
      == Success(Some(StartBlockTag(indent, name)))
  {
    var data := NamesData([name]);
    NamesDataWords([name]);
    ParseTagText(indent, BlockStart, data, ending);
    var p := LineParts(indent, BlockStart, data, ending);
    assert FragmentNames(data) == {name};
    assert InvalidNames(data) == {};
    ParseStartTagErrors(p);
  }

  /** `{% endfragment %}` closes a fragment, whatever blank data it carries. */
  lemma ParseEndTagText(indent: string, data: string, ending: string)
    requires IsBlank(indent) && IsBlank(data) && IsBlank(ending)
    ensures ParseFragmentTag(TagText(indent, End, data, ending), DefaultTagMarkers) == Success(Some(EndTag))
  {
    BlankHasNoPercent(data);
    ParseTagText(indent, End, data, ending);
  }

  /** `{% endfragment-block %}` closes a block, indented as written, whatever
      blank data it carries. */
  lemma ParseEndBlockTagText(indent: string, data: string, ending: string)
    requires IsBlank(indent) && IsBlank(data) && IsBlank(ending)
    ensures ParseFragmentTag(TagText(indent, BlockEnd, data, ending), DefaultTagMarkers) == Success(Some(EndBlockTag(indent)))
  {
    BlankHasNoPercent(data);
    ParseTagText(indent, BlockEnd, data, ending);
  }

  lemma BlankHasNoPercent(s: string)
    requires IsBlank(s)
    ensures '%' !in s
  {
    forall i | 0 <= i < |s| ensures s[i] != '%' {
      assert IsWhitespace(s[i]);
    }
  }

  /** Neither `block` nor `endblock` is a fragment keyword. */
  lemma NotAKeyword(s: string)
    requires StartsWith(s, "block") || StartsWith(s, "endblock")
    ensures MatchKeyword(s) == None
  {
    assert s[0] == 'b' || s[3] == 'b';
    assert !StartsWith(s, Keyword(BlockStart)) by { assert Keyword(BlockStart)[0] == 'f'; }
    assert !StartsWith(s, Keyword(BlockEnd)) by { assert Keyword(BlockEnd)[0] == 'e' && Keyword(BlockEnd)[3] == 'f'; }
    assert !StartsWith(s, Keyword(Start)) by { assert Keyword(Start)[0] == 'f'; }
    assert !StartsWith(s, Keyword(End)) by { assert Keyword(End)[0] == 'e' && Keyword(End)[3] == 'f'; }
  }

  /** A line `indent{% ` followed by something other than a keyword is not
      a fragment tag. */
  lemma NoKeywordIsContent(indent: string, rest: string)
    requires IsBlank(indent)
    requires MatchKeyword(rest) == None
    ensures ParseFragmentTag(indent + "{% " + rest, DefaultTagMarkers) == Success(None)
  {
    var line := indent + "{% " + rest;
    var after := " " + rest;
    assert line == indent + "{%" + after;
    OpenMarkerAfterIndent(line, indent);
    assert SplitOnce(line, "{%") == Some((indent, after)) by {
      var r := SplitOnce(line, "{%").value;
      assert |r.0| == |indent|;
      assert line[..|indent|] == indent && line[..|r.0|] == r.0;
      assert line[|indent| + 2..] == after;
      assert line[|r.0| + 2..] == r.1;
    }
    assert after[1..] == rest;
    assert ParseBase(line, DefaultTagMarkers) == None;
  }

  /** The rewritten `{% block name %}` line is plain content to the
      pre-processor: it passes through a second run as it is. */
  lemma BlockOpenLineIsContent(prefix: string, name: string, ending: string)
    requires IsBlank(prefix)
    ensures ParseFragmentTag(BlockOpenLine(prefix, name, ending), DefaultTagMarkers) == Success(None)
  {
    var open := "block " + name + " %}" + ending;
    assert BlockOpenLine(prefix, name, ending) == prefix + "{% " + open;
    assert MatchKeyword(open) == None by {
      assert open[..5] == "block";
      NotAKeyword(open);
    }
    NoKeywordIsContent(prefix, open);
  }

  /** So is the rewritten `{% endblock %}` line. */
  lemma BlockCloseLineIsContent(prefix: string, ending: string)
    requires IsBlank(prefix)
    ensures ParseFragmentTag(BlockCloseLine(prefix, ending), DefaultTagMarkers) == Success(None)
  {
    var close := "endblock %}" + ending;
    assert BlockCloseLine(prefix, ending) == prefix + "{% " + close;
    assert MatchKeyword(close) == None by {
      assert close[..8] == "endblock";
      NotAKeyword(close);
    }
    NoKeywordIsContent(prefix, close);
  }
}

=== FILE: results.dfy ===
/** Failure-compatible wrappers used throughout the model: the Rust `Option`,
    `Result<T, E>` and `Result<(), E>` shapes. */
module Results {

  datatype Option<+T> = None | Some(value: T) {
    predicate IsFailure() { None? }

    function PropagateFailure<U>(): Option<U>
      requires None?
    {
      None
    }

    function Extract(): T
      requires Some?
    {
      value
    }
  }

  datatype Result<+T, +E> = Success(value: T) | Failure(error: E) {
    predicate IsFailure() { Failure? }

    function PropagateFailure<U>(): Result<U, E>
      requires Failure?
    {
      Failure(error)
    }

    function Extract(): T
      requires Success?
    {
      value
    }
  }

  /** A result without a success value, as `Result<(), E>`. */
  datatype Outcome<+E> = Pass | Fail(error: E)
}

=== FILE: stack.dfy ===
/** The fragment stack (`FragmentStack`): the name sets of the open tags,
    innermost last, and the set of active fragments, which always holds the
    base template `""`. */
module Stack {
  import opened Results
  import opened Errors

  datatype FragmentStack = FragmentStack(frames: seq<set<string>>, active: set<string>)

  /** Every name of every frame. */
  function UnionOf(frames: seq<set<string>>): set<string>
  {
    if frames == [] then {} else UnionOf(frames[..|frames| - 1]) + frames[|frames| - 1]
  }

  /** A name is open exactly when some frame holds it. */
  lemma {:induction false} InUnionOf(frames: seq<set<string>>, n: string)
    ensures n in UnionOf(frames) <==> exists i :: 0 <= i < |frames| && n in frames[i]
    decreases |frames|
  {
    if frames != [] {
      var init := frames[..|frames| - 1];
      InUnionOf(init, n);
      if exists i :: 0 <= i < |frames| && n in frames[i] {
        var i :| 0 <= i < |frames| && n in frames[i];
        if i < |init| {
          assert init[i] == frames[i];
        }
      }
      if exists i :: 0 <= i < |init| && n in init[i] {
        var i :| 0 <= i < |init| && n in init[i];
        assert init[i] == frames[i];
      }
    }
  }

  /** No name is open twice at once. */
  predicate PairwiseDisjoint(frames: seq<set<string>>) {
    forall i, j :: 0 <= i < j < |frames| ==> frames[i] !! frames[j]
  }

  /** The stack's invariant: the active set is the base plus every open
      name, every tag opens some name, open names never repeat, and the base
      is never opened. */
  predicate Valid(st: FragmentStack) {
    && st.active == {""} + UnionOf(st.frames)
    && (forall i :: 0 <= i < |st.frames| ==> st.frames[i] != {})
    && "" !in UnionOf(st.frames)
    && PairwiseDisjoint(st.frames)
  }

  /** `FragmentStack::default`: nothing open, only the base active. */
  function Default(): (st: FragmentStack)
    ensures Valid(st)
    ensures st.frames == [] && st.active == {""}
  {
    FragmentStack([], {""})
  }

  /** `FragmentStack::push`: open the given names, unless one of them is
      active already. A failed push leaves the driver with only its error,
      so the partly updated stack of the source is not returned. */
  function Push(st: FragmentStack, names: set<string>): (r: Result<FragmentStack, Error>)
    ensures r.Failure? <==> exists n :: n in names && n in st.active
    ensures r.Failure? ==> r.error == ReentrantFragment(SortedFragments(names * st.active))
    ensures r.Success? ==> r.value.frames == st.frames + [names]
    ensures r.Success? ==> forall n :: n in r.value.active <==> n in st.active || n in names
  {
    var reentrant := names * st.active;
    if reentrant != {} then
      Failure(ReentrantFragment(SortedFragments(reentrant)))
    else
      assert forall n :: n in names && n in st.active ==> n in reentrant;
      Success(FragmentStack(st.frames + [names], st.active + names))
  }

  /** `FragmentStack::pop`: close the innermost tag, returning the new stack
      and the active set as it was before. */
  function Pop(st: FragmentStack): (r: Result<(FragmentStack, set<string>), Error>)
    ensures r.Failure? <==> st.frames == []
    ensures r.Failure? ==> r.error == UnbalancedEndTag
    ensures r.Success? ==> r.value.1 == st.active
    ensures r.Success? ==> r.value.0.frames == st.frames[..|st.frames| - 1]
    ensures r.Success? ==> forall n :: n in r.value.0.active <==> n in st.active && n !in st.frames[|st.frames| - 1]
  {
    if st.frames == [] then Failure(UnbalancedEndTag)
    else
      var top := st.frames[|st.frames| - 1];
      Success((FragmentStack(st.frames[..|st.frames| - 1], st.active - top), st.active))
  }

  /** `FragmentStack::done`: fails, naming every open fragment, when a tag
      is still open. */
  function Done(st: FragmentStack): (r: Outcome<Error>)
    ensures r.Fail? <==> st.frames != []
    ensures r.Fail? ==> r.error == UnclosedTag(SortedFragments(UnionOf(st.frames)))
  {
    if st.frames != [] then Fail(UnclosedTag(SortedFragments(UnionOf(st.frames)))) else Pass
  }

  /** `FragmentStack::is_active`: under the invariant, a fragment is active
      exactly when it is the base or some open tag names it. */
  function IsActive(st: FragmentStack, fragment: string): (b: bool)
    ensures Valid(st) ==> (b <==> fragment == "" || exists i :: 0 <= i < |st.frames| && fragment in st.frames[i])
  {
    InUnionOf(st.frames, fragment);
    fragment in st.active
  }

  lemma UnionOfAppend(frames: seq<set<string>>, names: set<string>)
    ensures UnionOf(frames + [names]) == UnionOf(frames) + names
  {
    assert (frames + [names])[..|frames|] == frames;
  }

  /** A successful push keeps the stack valid. */
  lemma PushValid(st: FragmentStack, names: set<string>)
    requires Valid(st) && names != {}
    requires Push(st, names).Success?
    ensures Valid(Push(st, names).value)
  {
    var frames := st.frames + [names];
    UnionOfAppend(st.frames, names);
    assert names !! st.active;
    forall i, j | 0 <= i < j < |frames| ensures frames[i] !! frames[j] {
      if j == |st.frames| {
        forall n | n in frames[i] ensures n in UnionOf(st.frames) {
          InUnionOf(st.frames, n);
        }
      } else {
        assert frames[i] == st.frames[i] && frames[j] == st.frames[j];
      }
    }
  }

  /** A successful pop keeps the stack valid: since open names never
      repeat, removing the innermost frame's names removes exactly them. */
  lemma PopValid(st: FragmentStack)
    requires Valid(st)
    requires Pop(st).Success?
    ensures Valid(Pop(st).value.0)
  {
    var init := st.frames[..|st.frames| - 1];
    var top := st.frames[|st.frames| - 1];
    assert st.frames == init + [top];
    UnionOfAppend(init, top);
    forall n | n in UnionOf(init) ensures n !in top {
      InUnionOf(init, n);
      var i :| 0 <= i < |init| && n in init[i];
      assert init[i] == st.frames[i];
    }
    assert Pop(st).value.0.active == {""} + UnionOf(init);
    forall i, j | 0 <= i < j < |init| ensures init[i] !! init[j] {
      assert init[i] == st.frames[i] && init[j] == st.frames[j];
    }
    forall i | 0 <= i < |init| ensures init[i] != {} {
      assert init[i] == st.frames[i];
    }
  }

  /** Popping right after a successful push gives back the stack as it was,
      reporting the pushed names as active. */
  lemma PushPop(st: FragmentStack, names: set<string>)
    requires Valid(st)
    requires Push(st, names).Success?
    ensures Pop(Push(st, names).value) == Success((st, st.active + names))
  {
    var pushed := Push(st, names).value;
    assert pushed.frames[..|pushed.frames| - 1] == st.frames;
    assert (st.active + names) - names == st.active;
  }

  /** Under the invariant, `done` succeeds exactly when only the base is
      active, and otherwise names every active fragment except the base. */
  lemma DoneReportsActive(st: FragmentStack)
    requires Valid(st)
    ensures Done(st) == Pass <==> st.active == {""}
    ensures Done(st).Fail? ==> Done(st).error == UnclosedTag(SortedFragments(st.active - {""}))
  {
    assert UnionOf(st.frames) == st.active - {""};
    if st.frames != [] {
      var top := st.frames[|st.frames| - 1];
      var n :| n in top;
      InUnionOf(st.frames, n);
      assert n in st.active && n != "";
    }
  }
}

=== FILE: tags.dfy ===
/** The tag validator (`parse_fragment_tag`, `is_valid_fragment_name`): turn
    the parts of a tag line into a tag or a typed error. */
module Tags {
  import opened Results
  import opened Text
  import opened Words
  import opened Errors
  import opened Lexer

  datatype Tag =
    | StartTag(fragments: set<string>)           // {% fragment a b ... %}
    | EndTag                                      // {% endfragment %}
    | StartBlockTag(prefix: string, fragment: string) // {% fragment-block a %}
    | EndBlockTag(prefix: string)                 // {% endfragment-block %}

  predicate IsNameChar(c: char) {
    IsAlphanumeric(c) || c == '-' || c == '_'
  }

  /** `is_valid_fragment_name`: not the reserved word `block`, and made of
      alphanumerics, `-` and `_` only. A valid name can be written into a
      tag: it holds no whitespace and no `%`. */
  function IsValidFragmentName(name: string): (b: bool)
    ensures b ==> name != "block" && NoWhitespace(name) && '%' !in name
    ensures name != "block" && (forall i :: 0 <= i < |name| ==> IsAlphanumeric(name[i])) ==> b
  {
    name != "block" && forall i :: 0 <= i < |name| ==> IsNameChar(name[i])
  }

  /** A name a start tag can carry: valid, and (being a word) non-empty. */
  predicate IsFragmentName(name: string) {
    name != [] && IsValidFragmentName(name)
  }

  /** The words of a start tag's data (`data.trim().split_whitespace()`). */
  function NameList(data: string): (words: seq<string>)
    ensures words == [] <==> IsBlank(data)
    ensures AreWords(words)
  {
    TrimBlank(data);
    var t := Trim(data);
    assert IsBlank(t) ==> t == [] by {
      if t != [] { assert !IsWhitespace(t[0]); }
    }
    SplitWhitespace(t)
  }

  /** The names listed in a start tag's data; repeated names count once. */
  function FragmentNames(data: string): (names: set<string>)
    ensures forall n :: n in names ==> n != [] && NoWhitespace(n)
    ensures names == {} <==> IsBlank(data)
    ensures !IsBlank(data) ==> NameList(data)[0] in names
  {
    var words := NameList(data);
    var names := set w | w in words;
    assert words != [] ==> words[0] in names;
    assert words == [] ==> names == {};
    names
  }

  lemma TrimBlank(s: string)
    ensures IsBlank(s) <==> IsBlank(Trim(s))
  {
    var t := Trim(s);
    if t != [] { assert !IsWhitespace(t[0]); }
  }

  /** What a successful parse can produce: start tags name at least one
      fragment, every name is a valid fragment name, and a block tag's
      prefix (kept to indent the rewritten line) is blank. */
  predicate WellFormedTag(t: Tag) {
    match t
    case StartTag(fragments) => fragments != {} && forall n :: n in fragments ==> IsFragmentName(n)
    case EndTag => true
    case StartBlockTag(prefix, fragment) => IsBlank(prefix) && IsFragmentName(fragment)
    case EndBlockTag(prefix) => IsBlank(prefix)
  }

  /** `parse_fragment_tag`: `None` for a content line, the tag for a valid
      tag line, and the first error that applies otherwise. */
  function ParseFragmentTag(line: string, markers: TagMarkers): (r: Result<Option<Tag>, Error>)
    ensures r == Success(None) <==> ParseBase(line, markers).None?
    ensures r.Success? && r.value.Some? ==> WellFormedTag(r.value.value)
    ensures ParseBase(line, markers).Some? ==> r == Classify(ParseBase(line, markers).value)
  {
    match ParseBase(line, markers)
    case None => Success(None)
    case Some(parts) => Classify(parts)
  }

  /** The checks `parse_fragment_tag` applies to the parts of a tag line.
      Each `x.trim().is_empty()` test of the source is written `IsBlank(x)`,
      which `Trim`'s contract shows to be the same condition. */
  function Classify(parts: LineParts): (r: Result<Option<Tag>, Error>)
    ensures r.Success? ==> r.value.Some? && WellFormedTag(r.value.value)
    ensures r.Success? && parts.fragmentType == Start ==> r.value.value == StartTag(FragmentNames(parts.data))
    ensures r.Success? && parts.fragmentType == BlockStart ==>
      && r.value.value.StartBlockTag?
      && FragmentNames(parts.data) == {r.value.value.fragment}
      && r.value.value.prefix == parts.head
    ensures r.Success? && parts.fragmentType == End ==> r.value.value == EndTag
    ensures r.Success? && parts.fragmentType == BlockEnd ==> r.value.value == EndBlockTag(parts.head)
  {
    if !IsBlank(parts.head) then Failure(LeadingContent(parts.head))
    else if !IsBlank(parts.tail) then Failure(TrailingContent(parts.tail))
    else
      match parts.fragmentType
      case Start => ParseStartTag(parts)
      case BlockStart => ParseStartTag(parts)
      case End =>
        if !IsBlank(parts.data) then Failure(EndTagWithData(parts.data))
        else Success(Some(EndTag))
      case BlockEnd =>
        if !IsBlank(parts.data) then Failure(EndTagWithData(parts.data))
        else Success(Some(EndBlockTag(parts.head)))
  }

  /** The start-tag branch of `parse_fragment_tag`. */
  function ParseStartTag(parts: LineParts): (r: Result<Option<Tag>, Error>)
    requires parts.fragmentType == Start || parts.fragmentType == BlockStart
    requires IsBlank(parts.head)
    ensures r.Success? ==> r.value.Some? && WellFormedTag(r.value.value)
    ensures r.Success? && parts.fragmentType == Start ==> r.value.value == StartTag(FragmentNames(parts.data))
    ensures r.Success? && parts.fragmentType == BlockStart ==>
      && r.value.value.StartBlockTag?
      && FragmentNames(parts.data) == {r.value.value.fragment}
      && r.value.value.prefix == parts.head
    ensures r.Failure? ==> r.error in StartTagErrors(parts.data)
  {
    if IsBlank(parts.data) then Failure(StartTagWithoutData)
    else
      var fragments := FragmentNames(parts.data);
      var invalid := InvalidNames(parts.data);
      if invalid != {} then Failure(InvalidFragmentName(SortedFragments(invalid)))
      else if parts.fragmentType == Start then
        NoInvalidNames(parts.data);
        Success(Some(StartTag(fragments)))
      else if |fragments| > 1 then Failure(MultipleNamesBlock(SortedFragments(fragments)))
      else if |fragments| == 0 then Failure(UnnamedBlock)
      else
        var name := NameList(parts.data)[0];
        SingletonSet(fragments, name);
        Success(Some(StartBlockTag(parts.head, name)))
  }

  /** The errors the start-tag branch can report for the given data. */
  function StartTagErrors(data: string): set<Error> {
    { StartTagWithoutData, InvalidFragmentName(SortedFragments(InvalidNames(data))),
      MultipleNamesBlock(SortedFragments(FragmentNames(data))), UnnamedBlock }
  }

  lemma SingletonSet(s: set<string>, x: string)
    requires x in s && |s| <= 1
    ensures s == {x}
  {
    assert |s - {x}| == |s| - 1;
    assert s - {x} == {};
    assert s == (s - {x}) + {x};
  }

  /** The names of a start tag's data that `is_valid_fragment_name` rejects. */
  function InvalidNames(data: string): set<string> {
    set n | n in FragmentNames(data) && !IsValidFragmentName(n)
  }

  predicate IsStartKind(t: FragmentType) {
    t == Start || t == BlockStart
  }

  /** If no name is invalid, every name is a fragment name. */
  lemma NoInvalidNames(data: string)
    requires InvalidNames(data) == {}
    ensures forall n :: n in FragmentNames(data) ==> IsFragmentName(n)
  {
    forall n | n in FragmentNames(data) ensures IsFragmentName(n) {
      assert n !in InvalidNames(data);
    }
  }

  /** The start-tag checks, in order: blank data, then invalid names, then
      (for a block) more than one name; the tag parses when all pass. */
  lemma ParseStartTagErrors(p: LineParts)
    requires IsStartKind(p.fragmentType) && IsBlank(p.head)
    ensures var r := ParseStartTag(p);
      && (r == Failure(StartTagWithoutData) <==> IsBlank(p.data))
      && (r == Failure(InvalidFragmentName(SortedFragments(InvalidNames(p.data)))) <==>
            !IsBlank(p.data) && InvalidNames(p.data) != {})
      && (r == Failure(MultipleNamesBlock(SortedFragments(FragmentNames(p.data)))) <==>
            !IsBlank(p.data) && InvalidNames(p.data) == {}
            && p.fragmentType == BlockStart && |FragmentNames(p.data)| > 1)
      && (r.Success? <==>
            !IsBlank(p.data) && InvalidNames(p.data) == {}
            && (p.fragmentType == BlockStart ==> |FragmentNames(p.data)| == 1))
  {
    var r := ParseStartTag(p);
    if !IsBlank(p.data) && p.fragmentType == BlockStart {
      var names := FragmentNames(p.data);
      assert NameList(p.data)[0] in names;
      assert |names| != 0;
    }
  }

  /** The validator's checks, in the order they apply: each error is
      returned exactly when every earlier check passed and its own fails,
      and the tag parses exactly when every check passes. */
  lemma ClassifyErrors(p: LineParts)
    ensures var r := Classify(p);
      && (r == Failure(LeadingContent(p.head)) <==> !IsBlank(p.head))
      && (r == Failure(TrailingContent(p.tail)) <==> IsBlank(p.head) && !IsBlank(p.tail))
    ensures var r := Classify(p);
      var margins := IsBlank(p.head) && IsBlank(p.tail);
      && (r == Failure(StartTagWithoutData) <==>
            margins && IsStartKind(p.fragmentType) && IsBlank(p.data))
      && (r == Failure(InvalidFragmentName(SortedFragments(InvalidNames(p.data)))) <==>
            margins && IsStartKind(p.fragmentType) && !IsBlank(p.data) && InvalidNames(p.data) != {})
      && (r == Failure(MultipleNamesBlock(SortedFragments(FragmentNames(p.data)))) <==>
            margins && p.fragmentType == BlockStart && !IsBlank(p.data) && InvalidNames(p.data) == {}
            && |FragmentNames(p.data)| > 1)
      && (r == Failure(EndTagWithData(p.data)) <==>
            margins && !IsStartKind(p.fragmentType) && !IsBlank(p.data))
    ensures var r := Classify(p);
      r.Success? <==>
        && IsBlank(p.head) && IsBlank(p.tail)
        && (IsStartKind(p.fragmentType) ==> !IsBlank(p.data) && InvalidNames(p.data) == {})
        && (p.fragmentType == BlockStart ==> |FragmentNames(p.data)| == 1)
        && (!IsStartKind(p.fragmentType) ==> IsBlank(p.data))
  {
    if !IsBlank(p.head) {
      assert Classify(p) == Failure(LeadingContent(p.head));
    } else if !IsBlank(p.tail) {
      assert Classify(p) == Failure(TrailingContent(p.tail));
    } else if IsStartKind(p.fragmentType) {
      assert Classify(p) == ParseStartTag(p);
      ParseStartTagErrors(p);
    } else if !IsBlank(p.data) {
      assert Classify(p) == Failure(EndTagWithData(p.data));
    } else {
      assert Classify(p).Success?;
    }
  }

  /** A block start tag always names its fragment: blank data is rejected
      before the names are counted, and non-blank data has a word, so the
      `UnnamedBlock` error is never produced. */
  lemma UnnamedBlockUnreachable(line: string, m: TagMarkers)
    ensures ParseFragmentTag(line, m) != Failure(UnnamedBlock)
  {
    match ParseBase(line, m)
    case None =>
    case Some(p) => ClassifyErrors(p);
  }
}

=== FILE: text.dfy ===
/** Character classes and the `str` primitives the pre-processor relies on:
    `trim`, `strip_prefix`, `split_once`, `rsplit_once` and `find`. */
module Text {
  import opened Results

  /** Unicode `White_Space`, the class behind Rust's `char::is_whitespace`,
      `str::trim` and `str::split_whitespace`. */
  predicate IsWhitespace(c: char) {
    || ('\t' <= c <= '\r')
    || c == ' '
    || c == '\U{85}'
    || c == '\U{A0}'
    || c == '\U{1680}'
    || ('\U{2000}' <= c <= '\U{200A}')
    || c == '\U{2028}'
    || c == '\U{2029}'
    || c == '\U{202F}'
    || c == '\U{205F}'
    || c == '\U{3000}'
  }

  /** ASCII letters and digits: the model's stand-in for `char::is_alphanumeric`. */
  predicate IsAlphanumeric(c: char) {
    ('a' <= c <= 'z') || ('A' <= c <= 'Z') || ('0' <= c <= '9')
  }

  /** Every character is whitespace (the empty string included). */
  predicate IsBlank(s: string) {
    forall i :: 0 <= i < |s| ==> IsWhitespace(s[i])
  }

  /** Neither the first nor the last character is whitespace: what
      `str::trim` leaves. */
  predicate Unpadded(s: string) {
    s == [] || (!IsWhitespace(s[0]) && !IsWhitespace(s[|s| - 1]))
  }

  /** No character is whitespace. */
  predicate NoWhitespace(s: string) {
    forall i :: 0 <= i < |s| ==> !IsWhitespace(s[i])
  }

  predicate StartsWith(s: string, prefix: string) {
    |prefix| <= |s| && s[..|prefix|] == prefix
  }

  predicate EndsWith(s: string, suffix: string) {
    |suffix| <= |s| && s[|s| - |suffix|..] == suffix
  }

  /** `pat` occurs in `s` starting at index `k`. */
  predicate OccursAt(s: string, pat: string, k: nat) {
    k + |pat| <= |s| && s[k..k + |pat|] == pat
  }

  lemma BlankConcat(a: string, b: string)
    ensures IsBlank(a + b) <==> IsBlank(a) && IsBlank(b)
  {
    if IsBlank(a) && IsBlank(b) {
      forall i | 0 <= i < |a + b| ensures IsWhitespace((a + b)[i]) {
        if i < |a| { assert (a + b)[i] == a[i]; } else { assert (a + b)[i] == b[i - |a|]; }
      }
    }
    if IsBlank(a + b) {
      forall i | 0 <= i < |a| ensures IsWhitespace(a[i]) { assert (a + b)[i] == a[i]; }
      forall i | 0 <= i < |b| ensures IsWhitespace(b[i]) { assert (a + b)[|a| + i] == b[i]; }
    }
  }

  /** The number of leading whitespace characters. */
  function LeadingWhitespace(s: string): (n: nat)
    ensures n <= |s| && IsBlank(s[..n])
    ensures n == |s| || !IsWhitespace(s[n])
    decreases |s|
  {
    if s != [] && IsWhitespace(s[0]) then
      var n := LeadingWhitespace(s[1..]);
      assert s[..n + 1] == [s[0]] + s[1..][..n];
      BlankConcat([s[0]], s[1..][..n]);
      n + 1
    else 0
  }

  /** The number of trailing whitespace characters. */
  function TrailingWhitespace(s: string): (n: nat)
    ensures n <= |s| && IsBlank(s[|s| - n..])
    ensures n == |s| || !IsWhitespace(s[|s| - n - 1])
    decreases |s|
  {
    if s != [] && IsWhitespace(s[|s| - 1]) then
      var t := s[..|s| - 1];
      var n := TrailingWhitespace(t);
      assert s[|s| - (n + 1)..] == t[|t| - n..] + [s[|s| - 1]];
      BlankConcat(t[|t| - n..], [s[|s| - 1]]);
      n + 1
    else 0
  }

  /** `str::trim`: `s` without its leading and trailing whitespace. The
      result neither starts nor ends with whitespace, and it is empty
      exactly for blank `s`. */
  function Trim(s: string): (r: string)
    ensures Unpadded(r)
    ensures r == [] <==> IsBlank(s)
  {
    var a := LeadingWhitespace(s);
    var t := s[a..];
    var b := TrailingWhitespace(t);
    assert b < |t| ==> t[0] == s[a];
    assert b == |t| ==> s == s[..a] + t;
    BlankConcat(s[..a], t);
    t[..|t| - b]
  }

  /** The trimmed string is the slice of `s` after its leading whitespace. */
  lemma TrimIsSlice(s: string)
    ensures LeadingWhitespace(s) + |Trim(s)| <= |s|
    ensures Trim(s) == s[LeadingWhitespace(s)..LeadingWhitespace(s) + |Trim(s)|]
  {
    var k := LeadingWhitespace(s);
    var t := s[k..];
    var b := TrailingWhitespace(t);
    assert Trim(s) == t[..|t| - b];
    SliceOfSlice(s, k, |t| - b);
  }

  /** Taking `m` characters after position `k` is one slice. */
  lemma SliceOfSlice(s: string, k: nat, m: nat)
    requires k + m <= |s|
    ensures s[k..][..m] == s[k..k + m]
  {
  }

  /** A string with no whitespace at either end is its own trim. */
  lemma UnpaddedTrim(s: string)
    requires Unpadded(s)
    ensures Trim(s) == s
  {
    TrimFramed([], s, []);
    assert [] + s + [] == s;
  }

  /** Trimming gives back the core of any blank-framed string whose core has
      no whitespace at either end: trim has a unique answer. */
  lemma TrimFramed(pre: string, core: string, post: string)
    requires IsBlank(pre) && IsBlank(post)
    requires Unpadded(core)
    ensures Trim(pre + core + post) == core
  {
    var s := pre + core + post;
    if core == [] {
      assert s == pre + post;
      BlankConcat(pre, post);
    } else {
      assert s == pre + (core + post);
      LeadingWhitespaceOf(pre, core + post);
      assert s[|pre|..] == core + post;
      TrailingWhitespaceOf(core, post);
      assert s[|pre|..|s| - |post|] == core;
    }
  }

  lemma {:induction false} LeadingWhitespaceOf(pre: string, rest: string)
    requires IsBlank(pre)
    requires rest == [] || !IsWhitespace(rest[0])
    ensures LeadingWhitespace(pre + rest) == |pre|
    decreases |pre|
  {
    if pre != [] {
      assert (pre + rest)[1..] == pre[1..] + rest;
      LeadingWhitespaceOf(pre[1..], rest);
    } else {
      assert pre + rest == rest;
    }
  }

  lemma {:induction false} TrailingWhitespaceOf(rest: string, post: string)
    requires IsBlank(post)
    requires rest == [] || !IsWhitespace(rest[|rest| - 1])
    ensures TrailingWhitespace(rest + post) == |post|
    decreases |post|
  {
    if post != [] {
      assert (rest + post)[..|rest + post| - 1] == rest + post[..|post| - 1];
      TrailingWhitespaceOf(rest, post[..|post| - 1]);
    } else {
      assert rest + post == rest;
    }
  }

  /** Trimming twice is trimming once. */
  lemma TrimIdempotent(s: string)
    ensures Trim(Trim(s)) == Trim(s)
  {
    TrimFramed([], Trim(s), []);
    assert [] + Trim(s) + [] == Trim(s);
  }

  /** `str::strip_prefix(char::is_whitespace)`: remove exactly one leading
      whitespace character, if there is one. */
  function StripWhitespaceChar(s: string): (r: Option<string>)
    ensures r.Some? <==> s != [] && IsWhitespace(s[0])
    ensures r.Some? ==> s == [s[0]] + r.value
  {
    if s != [] && IsWhitespace(s[0]) then Some(s[1..]) else None
  }

  /** `str::strip_prefix(&str)`. */
  function StripPrefix(s: string, prefix: string): (r: Option<string>)
    ensures r.Some? <==> StartsWith(s, prefix)
    ensures r.Some? ==> s == prefix + r.value
  {
    if StartsWith(s, prefix) then Some(s[|prefix|..]) else None
  }

  /** `str::find(&str)`: the first index at which `pat` occurs. */
  function IndexOf(s: string, pat: string): (r: Option<nat>)
    ensures r.Some? ==> OccursAt(s, pat, r.value)
    ensures r.Some? ==> forall k: nat :: k < r.value ==> !OccursAt(s, pat, k)
    ensures r.None? ==> forall k: nat :: !OccursAt(s, pat, k)
  {
    IndexFrom(s, pat, 0)
  }

  function IndexFrom(s: string, pat: string, from: nat): (r: Option<nat>)
    requires from <= |s|
    ensures r.Some? ==> from <= r.value && OccursAt(s, pat, r.value)
    ensures r.Some? ==> forall k: nat :: from <= k < r.value ==> !OccursAt(s, pat, k)
    ensures r.None? ==> forall k: nat :: from <= k ==> !OccursAt(s, pat, k)
    decreases |s| - from
  {
    if OccursAt(s, pat, from) then Some(from)
    else if from + |pat| >= |s| then None
    else IndexFrom(s, pat, from + 1)
  }

  /** A match found at `i` with none before it is what `IndexOf` returns. */
  lemma IndexOfFirst(s: string, pat: string, i: nat)
    requires OccursAt(s, pat, i)
    requires forall k: nat :: k < i ==> !OccursAt(s, pat, k)
    ensures IndexOf(s, pat) == Some(i)
  {
  }

  /** `str::split_once(&str)`: the text before and after the first occurrence. */
  function SplitOnce(s: string, pat: string): (r: Option<(string, string)>)
    ensures r.Some? ==> s == r.value.0 + pat + r.value.1
    ensures r.Some? ==> IndexOf(s, pat) == Some(|r.value.0|)
    ensures r.None? <==> IndexOf(s, pat).None?
  {
    match IndexOf(s, pat)
    case None => None
    case Some(i) =>
      assert s == s[..i] + s[i..i + |pat|] + s[i + |pat|..];
      Some((s[..i], s[i + |pat|..]))
  }

  /** Cutting at the first occurrence of `pat` gives back the text around it. */
  lemma SplitOnceAt(s: string, head: string, pat: string, tail: string)
    requires s == head + pat + tail
    requires IndexOf(s, pat) == Some(|head|)
    ensures SplitOnce(s, pat) == Some((head, tail))
  {
    assert s[..|head|] == head;
    assert s[|head| + |pat|..] == tail;
  }

  /** The last index holding `c`, as `str::rfind(char)`. */
  function LastIndexOfChar(s: string, c: char): (r: Option<nat>)
    ensures r.Some? ==> r.value < |s| && s[r.value] == c && c !in s[r.value + 1..]
    ensures r.None? <==> c !in s
  {
    if s == [] then None
    else if s[|s| - 1] == c then Some(|s| - 1)
    else
      var r := LastIndexOfChar(s[..|s| - 1], c);
      assert s == s[..|s| - 1] + [s[|s| - 1]];
      assert r.Some? ==> s[r.value + 1..] == s[..|s| - 1][r.value + 1..] + [s[|s| - 1]];
      r
  }

  /** `str::rsplit_once(char)`: the text before and after the last `c`. */
  function RSplitOnceChar(s: string, c: char): (r: Option<(string, string)>)
    ensures r.None? <==> c !in s
    ensures r.Some? ==> s == r.value.0 + [c] + r.value.1 && c !in r.value.1
  {
    match LastIndexOfChar(s, c)
    case None => None
    case Some(i) =>
      assert s == s[..i] + [c] + s[i + 1..];
      Some((s[..i], s[i + 1..]))
  }

  /** The last `c` of `a + [c] + b` is the one after `a` when `b` holds none. */
  lemma {:induction false} LastIndexOfCharAfter(a: string, c: char, b: string)
    requires c !in b
    ensures LastIndexOfChar(a + [c] + b, c) == Some(|a|)
    decreases |b|
  {
    var s := a + [c] + b;
    if b != [] {
      assert s[|s| - 1] == b[|b| - 1];
      assert s[..|s| - 1] == a + [c] + b[..|b| - 1];
      LastIndexOfCharAfter(a, c, b[..|b| - 1]);
    }
  }

  /** Splitting at the last `c` of `a + [c] + b` with `c` absent from `b`
      gives back `a` and `b`. */
  lemma RSplitOnceCharOf(a: string, c: char, b: string)
    requires c !in b
    ensures RSplitOnceChar(a + [c] + b, c) == Some((a, b))
  {
    var s := a + [c] + b;
    LastIndexOfCharAfter(a, c, b);
    assert s[..|a|] == a;
    assert s[|a| + 1..] == b;
  }
}

=== FILE: words.dfy ===
/** `str::split_whitespace` and its inverse, joining words with a separator. */
module Words {
  import opened Text

  /** The length of the leading run of non-whitespace characters. */
  function WordLength(s: string): (n: nat)
    ensures n <= |s| && NoWhitespace(s[..n])
    ensures n == |s| || IsWhitespace(s[n])
    decreases |s|
  {
    if s != [] && !IsWhitespace(s[0]) then
      var n := WordLength(s[1..]);
      assert s[..n + 1] == [s[0]] + s[1..][..n];
      n + 1
    else 0
  }

  /** `str::split_whitespace`: the maximal whitespace-free runs of `s`, in
      order. There is none exactly when `s` is blank. */
  function SplitWhitespace(s: string): (words: seq<string>)
    ensures forall i :: 0 <= i < |words| ==> words[i] != [] && NoWhitespace(words[i])
    ensures words == [] <==> IsBlank(s)
    decreases |s|
  {
    var a := LeadingWhitespace(s);
    if a == |s| then
      assert s[..a] == s;
      []
    else
      var t := s[a..];
      var n := WordLength(t);
      assert t[0] == s[a];
      [t[..n]] + SplitWhitespace(t[n..])
  }

  /** `words` joined with `sep` between neighbours (Rust's `join`). */
  function JoinWith(words: seq<string>, sep: string): string
    decreases |words|
  {
    if |words| == 0 then ""
    else if |words| == 1 then words[0]
    else words[0] + sep + JoinWith(words[1..], sep)
  }

  /** Every word is non-empty and free of whitespace. */
  predicate AreWords(words: seq<string>) {
    forall i :: 0 <= i < |words| ==> words[i] != [] && NoWhitespace(words[i])
  }

  lemma {:induction false} WordLengthOf(w: string, rest: string)
    requires NoWhitespace(w)
    requires rest == [] || IsWhitespace(rest[0])
    ensures WordLength(w + rest) == |w|
    decreases |w|
  {
    if w != [] {
      assert (w + rest)[1..] == w[1..] + rest;
      WordLengthOf(w[1..], rest);
    } else {
      assert w + rest == rest;
    }
  }

  /** Leading blanks do not change the words. */
  lemma SplitWhitespaceSkipsBlank(pre: string, s: string)
    requires IsBlank(pre)
    requires s == [] || !IsWhitespace(s[0])
    ensures SplitWhitespace(pre + s) == SplitWhitespace(s)
  {
    LeadingWhitespaceOf(pre, s);
    LeadingWhitespaceOf([], s);
    assert [] + s == s;
    assert (pre + s)[|pre|..] == s;
    if s == [] {
      assert pre + s == pre;
    }
  }

  /** A leading word is split off as it is. */
  lemma SplitWhitespaceWord(w: string, rest: string)
    requires w != [] && NoWhitespace(w)
    requires rest == [] || IsWhitespace(rest[0])
    ensures SplitWhitespace(w + rest) == [w] + SplitWhitespace(rest)
  {
    var s := w + rest;
    LeadingWhitespaceOf([], s);
    assert [] + s == s;
    WordLengthOf(w, rest);
    assert s[0..] == s;
    assert s[..|w|] == w;
    assert s[|w|..] == rest;
  }

  /** Joining words with a single whitespace character and splitting them
      again gives the words back. */
  lemma {:induction false} SplitJoinRoundTrip(words: seq<string>, sep: char)
    requires AreWords(words)
    requires IsWhitespace(sep)
    ensures SplitWhitespace(JoinWith(words, [sep])) == words
    decreases |words|
  {
    if |words| == 1 {
      SingleWord(words[0]);
      assert JoinWith(words, [sep]) == words[0];
    } else if |words| > 1 {
      assert AreWords(words[1..]) by {
        forall i | 0 <= i < |words[1..]| ensures words[1..][i] != [] && NoWhitespace(words[1..][i]) {
          assert words[1..][i] == words[i + 1];
        }
      }
      SplitJoinRoundTrip(words[1..], sep);
      JoinSplitStep(words, sep);
    }
  }

  /** A single word splits into itself. */
  lemma SingleWord(w: string)
    requires w != [] && NoWhitespace(w)
    ensures SplitWhitespace(w) == [w]
  {
    SplitWhitespaceWord(w, []);
    assert w + [] == w;
    assert SplitWhitespace([]) == [] by { assert IsBlank([]); }
  }

  /** The inductive step of the round trip: if the later words come back
      from their join, so do all of them. */
  lemma JoinSplitStep(words: seq<string>, sep: char)
    requires |words| > 1 && AreWords(words)
    requires IsWhitespace(sep)
    requires SplitWhitespace(JoinWith(words[1..], [sep])) == words[1..]
    ensures SplitWhitespace(JoinWith(words, [sep])) == words
  {
    var w := words[0];
    var tail := JoinWith(words[1..], [sep]);
    assert JoinWith(words, [sep]) == w + ([sep] + tail);
    JoinStartsWithWord(words[1..], [sep]);
    SplitWordThenSeparator(w, sep, tail);
    assert words == [w] + words[1..];
  }

  /** A word, one whitespace character and a text starting with a word split
      into the word and the words of that text. */
  lemma SplitWordThenSeparator(w: string, sep: char, tail: string)
    requires w != [] && NoWhitespace(w)
    requires IsWhitespace(sep)
    requires tail == [] || !IsWhitespace(tail[0])
    ensures SplitWhitespace(w + ([sep] + tail)) == [w] + SplitWhitespace(tail)
  {
    SplitWhitespaceWord(w, [sep] + tail);
    SplitWhitespaceSkipsBlank([sep], tail);
  }

  /** A non-empty join starts with the first word's first character. */
  lemma JoinStartsWithWord(words: seq<string>, sep: string)
    requires |words| > 0 && words[0] != []
    ensures JoinWith(words, sep) != [] && JoinWith(words, sep)[0] == words[0][0]
  {
  }
}
